=== FILE: README.md ===
# WordPress → Algolia sync, modelled in Dafny

The plugin mirrors WordPress posts into one Algolia index. This project
models its deterministic core:

- **Text normaliser.** `prepareTextContent` strips tags, turns each run of
  line breaks into one space, and can truncate with a `...` marker that
  counts inside the width.
- **Record builder.** The data half of `AlgoliaIndex::save`:
  - the `{post_type}_{id}` objectID;
  - the excerpt choice;
  - the Polylang locale;
  - the `extraFields` hook;
  - ACF flattening;
  - taxonomy flattening.
- **Index gateway.** `AlgoliaIndex` as a state record threaded through
  every call. The record holds the transient cache (with TTLs), the remote
  records keyed by (index name, objectID), the settings pushed to each
  index, and the log of every call made into the search client.
  - Whether a remote call throws is an abstract predicate.
  - What a search answers is an abstract function.
- **Lifecycle.** `RegisterAbstract`:
  - `save_post`, `delete_post`, the bulk actions, the taxonomy cascade and
    `cli_reindex`, each as a plan of saves and deletes run by one executor
    that opens a fresh gateway per step;
  - the status check, the cached `query`, `cli_set_settings`, and the
    constructor's hook names.
- **Registry and routing.** `Main::register`, the credential gate,
  `Queries::query`, and the `cocktail` post type's configuration.

WordPress, ACF and Polylang are a read-only snapshot (`Wordpress.World`):
- `get_field` is a map;
- `wp_get_post_terms` is a map to a sequence;
- `get_posts` is a filter over the post listing;
- thumbnails, dates, permalinks and `get_post_type` are opaque values.

Three consequences of the code are easy to miss:
- `mb_strimwidth("abcdefg", 0, 3, "...")` is `"..."`: the marker counts
  inside the width (`TextNormalizer.PrepareTextMarkerInsideWidth`).
- No caller catches a failing save or delete. A throw ends the whole
  hook, bulk action, cascade or reindex, and the earlier steps' effects
  stay.
- `show_in_index` never answers `false`, so two branches never fire: the
  hidden-flag delete in `save_post` and the early return in `cli_reindex`.
  A post whose flag is set is indexed like any other (`Lifecycle.DecideSpec`,
  `Lifecycle.ReindexStepsSaveAll`).

## Model

| member | source | states |
|---|---|---|
| Php.Interpolate | inc/AlgoliaIndex.php:277-280 | A string interpolates to itself; null and false give the empty locale; only an object cannot be interpolated |
| Php.Prop | inc/AlgoliaIndex.php:136-142 | Reading a sub-field of a group value gives that property; an object without it, or a non-object, gives null |
| TextNormalizer.StripTags | inc/AlgoliaIndex.php:349 | The result contains no tag opener and is no longer than the input; what it keeps is stated by `TextNormalizer.StripTagsSpan` |
| TextNormalizer.StripTagsSpan | inc/AlgoliaIndex.php:349 | Text before a `<...>` span is kept, the span is removed whole, and stripping continues after it |
| TextNormalizer.StripTagsKeepsPlainText | inc/AlgoliaIndex.php:349 | Text without tags passes through unchanged |
| TextNormalizer.CollapseRemovesLineBreaks | inc/AlgoliaIndex.php:350 | No `\n` or `\r` survives the collapse, and it introduces no tag opener |
| TextNormalizer.CollapseKeepsUnbrokenText | inc/AlgoliaIndex.php:350 | Text without line breaks is unchanged |
| TextNormalizer.CollapseRun | inc/AlgoliaIndex.php:350 | A maximal run of line breaks between two pieces becomes exactly one space |
| TextNormalizer.Strimwidth | inc/AlgoliaIndex.php:352 | A string within the width is unchanged; a longer one becomes its first width−3 characters plus `...`, exactly width long |
| TextNormalizer.Clean | inc/AlgoliaIndex.php:349-350 | The cleaned text has no tag opener, no line break, and is no longer than the input; `TextNormalizer.CleanDropsTag` states what survives |
| TextNormalizer.CleanDropsTag | inc/AlgoliaIndex.php:349-350 | Plain text on both sides of a tag is kept and joined with nothing in between |
| TextNormalizer.PrepareText | inc/AlgoliaIndex.php:343-355 | Non-strings pass through unchanged; strings come out cleaned; with width 0 nothing is cut; with a positive width the result fits it, is unchanged when short and is cut with the marker when long |
| TextNormalizer.PrepareTextIdempotent | inc/AlgoliaIndex.php:343-355 | Normalising normalised text changes nothing |
| TextNormalizer.PrepareTextStripsAndJoins | inc/AlgoliaIndex.php:349-350 | `<p>a\nb</p>` normalises to `a b` |
| TextNormalizer.PrepareTextMarkerInsideWidth | inc/AlgoliaIndex.php:352 | `abcdefg` cut to 3 is `...`, and cut to 5 is `ab...` |
| Wordpress.GetPost | inc/RegisterAbstract.php:142-143 | A found post is listed and has the requested id; no post is found only when none has that id |
| Wordpress.Filter | inc/RegisterAbstract.php:276-288 | A post is listed exactly when it is among the posts and matches the query; `Wordpress.FilterAppend` states that the matches keep listing order |
| Wordpress.FilterSingle | inc/RegisterAbstract.php:276-288 | A one-post listing yields that post exactly when it matches, and nothing otherwise |
| Wordpress.FilterAppend | inc/RegisterAbstract.php:276-293 | Filtering a listing split in two gives the first part's matches followed by the second's, so the matches come in listing order |
| RecordBuilder.ObjectId | inc/AlgoliaIndex.php:330-333 | The `{post_type}_{id}` objectID; `RecordBuilder.ObjectIdInjective` states that it identifies the pair |
| RecordBuilder.ObjectIdInjective | inc/AlgoliaIndex.php:330-333 | Two (post type, id) pairs share an objectID exactly when they are equal, even when the type contains `_` |
| RecordBuilder.Excerpt | inc/AlgoliaIndex.php:110 | A truthy excerpt is cleaned and kept whole; otherwise the body is cleaned and cut to 125 with the marker |
| RecordBuilder.BaseRecord | inc/AlgoliaIndex.php:98-114 | Exactly the ten base keys: the canonical objectID, the raw title, the excerpt, the whole body cleaned and never cut, each of the four thumbnail sizes under its own name with `largest` as the main one, and the host's date, timestamp, URL and type |
| RecordBuilder.WithLocale | inc/AlgoliaIndex.php:117-120 | Without Polylang the record is untouched; with it, `locale` is the post's language when truthy and the default slug otherwise, and no other key changes |
| RecordBuilder.WriteLabels | inc/AlgoliaIndex.php:138-144 | The label loop writes every `{key}_{label}` for a multi-label group, and the parent key for a one-label group |
| RecordBuilder.ApplyAcfField | inc/AlgoliaIndex.php:128-149 | One iteration of the ACF loop equals the union of the record with that entry's declarative writes |
| RecordBuilder.ApplyAcfFields | inc/AlgoliaIndex.php:128-149 | The whole ACF loop equals the record overlaid by the entries' writes, later entries winning |
| RecordBuilder.AcfFlattening | inc/AlgoliaIndex.php:134-147 | A falsy value adds nothing; a plain field lands under its name; a one-label group under the parent key; a multi-label group under every `{key}_{label}` and never under the parent key |
| RecordBuilder.WriteAttributes | inc/AlgoliaIndex.php:176-178 | The per-term attribute loop adds each listed ACF field of the term over the entry |
| RecordBuilder.ApplyTaxonomies | inc/AlgoliaIndex.php:152-183 | The whole taxonomy loop equals the record overlaid by each taxonomy's writes |
| RecordBuilder.TaxonomyFlattening | inc/AlgoliaIndex.php:165-182 | A taxonomy without terms adds no key; otherwise one index-aligned item per term: the name, or an object with the name and every listed field |
| RecordBuilder.AcfLayerKeys | inc/AlgoliaIndex.php:128-149 | The ACF stage only writes keys its entries declare |
| RecordBuilder.TaxonomyLayerKeys | inc/AlgoliaIndex.php:152-183 | The taxonomy stage only writes the taxonomies' own names |
| RecordBuilder.Build | inc/AlgoliaIndex.php:96-183 | The record `save` sends; its keys and their precedence are stated by `RecordBuilder.BuildPrecedence`, its objectID by `IndexGateway.BuildObjectId` |
| RecordBuilder.BuildPrecedence | inc/AlgoliaIndex.php:123-183 | Taxonomy keys override ACF keys, which override the extended base record; keys neither stage declares keep the `extraFields` value |
| IndexGateway.IndexKey | inc/AlgoliaIndex.php:272-275 | The handle's transient key; `IndexGateway.KeyFamiliesDisjoint` states it never equals an object or query key |
| IndexGateway.ObjectKey | inc/AlgoliaIndex.php:282-285 | A post's existence-flag key; `IndexGateway.ObjectKeyInjective` states one key per (type, id) |
| IndexGateway.QueryKey | inc/AlgoliaIndex.php:277-280 | A locale's query-result key; `IndexGateway.KeyFamiliesDisjoint` states it never equals a handle or object key |
| IndexGateway.KeyFamiliesDisjoint | inc/AlgoliaIndex.php:272-285 | Handle, object and query cache keys never collide |
| IndexGateway.ObjectKeyInjective | inc/AlgoliaIndex.php:282-285 | Two posts share an existence-flag key exactly when type and id agree |
| IndexGateway.Open | inc/AlgoliaIndex.php:79-88 | After construction a truthy handle is cached; records, settings and every other cache entry are unchanged |
| IndexGateway.InitIndexOp | inc/AlgoliaIndex.php:292-321 | `initIndex` is called only on a cache miss; settings are pushed exactly when asked; the handle is cached only after settings succeed; only a settings failure throws |
| IndexGateway.OpenIsInitIndex | inc/AlgoliaIndex.php:85-88 | The constructor's run is `init_index(false)` and cannot throw |
| IndexGateway.OpenIdempotent | inc/AlgoliaIndex.php:294-307 | A second construction reuses the cached handle and changes nothing |
| IndexGateway.Save | inc/AlgoliaIndex.php:96-191 | The post's existence flag and its locale's query entry are removed and no other entry; one `saveObject` of the built record is sent; on success the record replaces any earlier one under its objectID |
| IndexGateway.Delete | inc/AlgoliaIndex.php:198-202 | One `deleteObject` is sent; on success the record and the existence flag are gone; on a throw nothing but the log changes |
| IndexGateway.RecordExist | inc/AlgoliaIndex.php:209-226 | A truthy cached flag is returned with no call; otherwise one lookup answers true exactly when the record is there and the call succeeds, and only a true answer is cached (for an hour); it never throws |
| IndexGateway.CacheQuery | inc/AlgoliaIndex.php:251-254 | The result is readable under the locale's key, stored for 600 seconds; no other key is added and no other entry changes |
| IndexGateway.BuildObjectId | inc/AlgoliaIndex.php:99 | When no stage overrides it, the built record's objectID is the canonical one |
| IndexGateway.SaveThenExistsTwice | inc/AlgoliaIndex.php:186-226 | After a save, the first existence check costs one lookup and answers true; the second answers from the cache with no call |
| IndexGateway.DeleteThenExists | inc/AlgoliaIndex.php:198-226 | After a delete the post reads as absent and the answer is not cached |
| IndexGateway.DeleteKeepsQueries | inc/AlgoliaIndex.php:198-202 | A delete leaves every query entry and handle in the cache |
| IndexGateway.SaveThenDelete | inc/AlgoliaIndex.php:186-202 | Save stores the record under the post's objectID; a following delete removes it |
| Lifecycle.TaxonomyHooks | inc/RegisterAbstract.php:56-68 | An `edited_{name}` and a `delete_{name}` hook per taxonomy, in order, named from the descriptor |
| Lifecycle.Hooks | inc/RegisterAbstract.php:44-68 | The two status endpoints, `current_screen`, `wp_insert_post` and the type's delete hook, in that order, then exactly the taxonomy hooks in declaration order |
| Lifecycle.RegisterBulkActions | inc/RegisterAbstract.php:131-137 | Adds exactly the update and delete actions; every other action is kept |
| Lifecycle.ManageColumns | inc/RegisterAbstract.php:161-166 | Adds exactly the `in_index` column; every other column is kept |
| Lifecycle.ShowInIndex | inc/RegisterAbstract.php:304-313 | A truthy flag is returned as it is, anything else as `true`, so the answer is never `false`; it is strictly `true` exactly when ACF is missing or the flag is falsy or `true` |
| Lifecycle.Decide | inc/RegisterAbstract.php:96-124 | `save_post`'s branches in source order; `Lifecycle.DecideSpec` states which posts each branch takes |
| Lifecycle.DecideSpec | inc/RegisterAbstract.php:96-124 | Autosaves and other types are ignored; a post of this type is deleted exactly when unpublished and saved exactly when published |
| Lifecycle.BulkStep | inc/RegisterAbstract.php:141-157 | For one id: nothing when no post has it or the action is neither bulk action; a delete of that id when the post exists; a save of the post exactly when its `show_in_index` is strictly `true` |
| Lifecycle.BulkPlan | inc/RegisterAbstract.php:139-159 | At most one operation per listed id; `Lifecycle.BulkPlanSpec` states which, and `Lifecycle.BulkPlanAppend` that the ids are handled in order |
| Lifecycle.BulkPlanSingle | inc/RegisterAbstract.php:141-157 | A one-id request plans exactly that id's step |
| Lifecycle.BulkPlanAppend | inc/RegisterAbstract.php:141-157 | The plan of two id lists joined is the first list's plan followed by the second's, so operations follow request order and a repeated id is handled each time |
| Lifecycle.BulkDeleteInOrder | inc/RegisterAbstract.php:141-157 | A bulk delete of ids that all name posts issues one delete per listed id, index-aligned with the request, duplicates included |
| Lifecycle.BulkPlanSpec | inc/RegisterAbstract.php:139-159 | Update saves exactly the listed existing posts whose `show_in_index` is strictly `true`; delete deletes exactly the listed ids naming a post; other actions do nothing |
| Lifecycle.HandleBulkUpdate | inc/RegisterAbstract.php:139-159 | The redirect target comes back unchanged, and only when no step threw |
| Lifecycle.CascadePlanSpec | inc/RegisterAbstract.php:269-294 | A term edit re-saves exactly the published posts of this type tagged with it, one save each in listing order, and nothing for an unreadable term |
| Lifecycle.ReindexSteps | inc/RegisterAbstract.php:355-364 | The reindex loop as written, early return included; `Lifecycle.ReindexStepsSaveAll` states its outcome |
| Lifecycle.ReindexStepsSaveAll | inc/RegisterAbstract.php:355-364 | The reindex loop's early return never fires: it saves every listed post in order |
| Lifecycle.ReindexPlanSpec | inc/RegisterAbstract.php:347-365 | A reindex saves exactly the published posts of this type, in listing order |
| Lifecycle.Step | inc/RegisterAbstract.php:336-339 | One operation on a freshly constructed gateway; `Lifecycle.StepEffect` states its effect |
| Lifecycle.StepEffect | inc/RegisterAbstract.php:336-339 | One step on a fresh gateway sends its one write, or throws before or after sending it, and never changes settings |
| Lifecycle.Run | inc/RegisterAbstract.php:141-156 | The plan's steps in order, stopping at the first throw; `Lifecycle.RunEffect` states its effect |
| Lifecycle.RunEffect | inc/RegisterAbstract.php:141-156 | A plan's writes go out in plan order; a throw only cuts the sequence short; a completed run leaves the records as the reference replay does; settings never change |
| Lifecycle.SavePost | inc/RegisterAbstract.php:96-124 | The `save_post` handler; `Lifecycle.SavePostEffect` states its effect |
| Lifecycle.SavePostEffect | inc/RegisterAbstract.php:96-124 | After `save_post` a published post of this type is in the index with its built record, an unpublished one is absent, and another type or an autosave changes nothing |
| Lifecycle.DeletePost | inc/RegisterAbstract.php:126-129 | The `delete_post` handler; `Lifecycle.DeletePostEffect` states its effect |
| Lifecycle.DeletePostEffect | inc/RegisterAbstract.php:126-129 | After `delete_post` the record and its existence flag are gone |
| Lifecycle.UpdateTaxonomyPosts | inc/RegisterAbstract.php:269-294 | The term-edit cascade; `Lifecycle.UpdateTaxonomyPostsEffect` states its effect |
| Lifecycle.UpdateTaxonomyPostsEffect | inc/RegisterAbstract.php:269-294 | After a completed cascade every published post of this type tagged with the term is in the index |
| Lifecycle.CliReindex | inc/RegisterAbstract.php:347-365 | `cli_reindex`; `Lifecycle.CliReindexEffect` states its effect |
| Lifecycle.CliReindexEffect | inc/RegisterAbstract.php:347-365 | After a completed reindex every published post of this type is in the index, and no earlier record is lost |
| Lifecycle.CheckOne | inc/RegisterAbstract.php:181-184 | An id reads as present exactly when a truthy flag is cached or the record is there and the lookup succeeds; no record or setting changes |
| Lifecycle.CheckOneKeepsPresent | inc/RegisterAbstract.php:181-184 | Checking one id changes no id's answer, its own included |
| Lifecycle.CheckAll | inc/RegisterAbstract.php:181-184 | One item per id, in request order and duplicates included, each answering exactly as its id does on the state the request found; no remote write |
| Lifecycle.StatusCheck | inc/RegisterAbstract.php:175-190 | An empty request gets no reply; any other gets a success with one item per id in order, each answering from the state the request found; the error reply never occurs |
| Lifecycle.StatusFirstItem | inc/RegisterAbstract.php:181-187 | The first item's answer is exact with respect to the state the request found |
| Lifecycle.Query | inc/RegisterAbstract.php:373-389 | A truthy cached result is returned with no search; otherwise one search with filter `post_type:{pt} AND (locale:{locale})`, whose answer is cached and returned |
| Lifecycle.QueryMemoized | inc/RegisterAbstract.php:373-389 | A second query after a truthy answer is served from the cache with no call at all |
| Lifecycle.SaveRefreshesQuery | inc/AlgoliaIndex.php:186-187 | After a save the next query for the record's locale searches again |
| Lifecycle.GatewayOf | inc/RegisterAbstract.php:323-339 | Every gateway a synchronizer opens uses its base index name, its settings and its `extraFields` hook |
| Lifecycle.CliSetSettings | inc/RegisterAbstract.php:397-400 | Settings go to the base index whatever the locale; on success they are recorded, on failure nothing is |
| Cocktail.SearchableAttributes | post_types/Cocktail.php:42-45 | The merged attribute list; `Cocktail.SearchableAttributesOrder` states its contents |
| Cocktail.SearchableAttributesOrder | post_types/Cocktail.php:42-45 | Fourteen attributes: base fields, then ACF fields, then taxonomies, in declaration order |
| Cocktail.Config | post_types/Cocktail.php:29-33 | The `config` entry holds exactly `searchableAttributes`, the merged list, and `customRanking`, which is `asc(post_title)` alone |
| Cocktail.Settings | post_types/Cocktail.php:24-37 | The settings serve the given post type with hidden flag `search_hidden`, the three plain ACF fields, the eight plain taxonomies, that `config`, and one positional `forwardToReplicas` entry |
| Cocktail.ExtraFields | post_types/Cocktail.php:48-57 | The record passes through unchanged |
| Cocktail.Make | post_types/Cocktail.php:22-40 | The synchronizer and its settings both serve the post type it is built for, it writes to the index name it is given, and its hidden flag is `search_hidden` |
| Cocktail.FlattenedKeysSearchable | post_types/Cocktail.php:16-20 | Every ACF and taxonomy key a cocktail record gets is searchable, and none of them is `objectID`, `excerpt`, `content` or `locale` |
| Cocktail.CocktailRecord | post_types/Cocktail.php:48-57 | A cocktail record keeps the base id, excerpt, content and locale |
| Cocktail.CocktailKeepsObjectId | post_types/Cocktail.php:22-40 | The cocktail synchronizer never overrides `objectID`, so the lifecycle properties apply to it |
| Cocktail.CocktailHooks | post_types/Cocktail.php:20 | 21 hooks, with an edit and a delete hook for each of the eight taxonomies |
| Cocktail.CocktailSettingsPushed | post_types/Cocktail.php:24-37 | The settings pushed are exactly `searchableAttributes` and `customRanking`; `forwardToReplicas` is never sent |
| Plugin.Register | algolia.php:33-39 | Exactly the five post types are registered, cocktail by its own class |
| Plugin.RegisterConsistent | algolia.php:33-39 | Each entry serves the post type it is keyed by, and all share the `{prefix}content` index; for the four classes outside this model this rests on the premise (a `requires`) that their constructors keep the post type and index name they are given |
| Plugin.Prefix | algolia.php:47-54 | The index prefix; `Plugin.BootIndexName` states its default |
| Plugin.Boot | algolia.php:47-54 | Nothing is registered unless both credentials are defined; when they are, the registry is the one built with the defined or default prefix |
| Plugin.BootIndexName | algolia.php:33-54 | Once booted, cocktail writes to `production_content` when no prefix is defined and to `{prefix}content` when one is |
| Queries.RegisteredPostType | inc/Queries.php:40-46 | Found exactly for a registered string key |
| Queries.Query | inc/Queries.php:57-68 | A falsy or unregistered post type yields null with no call; a registered one delegates with the given locale, `en` by default |
| Queries.RouteWithoutLocale | inc/Queries.php:57-68 | A type registered under its own name, queried without a locale, runs one English search on its index filtered by type and locale |
| Queries.CocktailRegistered | inc/Queries.php:40-46 | After boot, `cocktail` resolves to the cocktail synchronizer on the content index |
| Queries.CocktailRouteIn | inc/Queries.php:57-68 | A registry holding the cocktail synchronizer routes a cocktail query without a locale to one English search on that synchronizer's index |
| Queries.CocktailQueryRoute | inc/Queries.php:57-68 | A booted cocktail query without a locale searches the content index for English cocktails |

## Left out

- Algolia SDK internals: `initIndex`, `setSettings`, `saveObject`, `deleteObject`, `getObject` and `search` are logged calls. Their failure is an abstract predicate, and a search's answer is an abstract function.
- Hook dispatch, `$_POST` and `wp_send_json_*` transport, `get_current_screen` and `admin_init`, `manage_admin_column` and `manage_admin_footer`: these are host plumbing and HTML or JavaScript output.
- Monolog logging, WP-CLI progress lines and `__()` translation. Labels are the English source strings.
- Transient remote failures: whether a call throws depends only on the call itself, so an identical call retried after a throw throws again; an intermittent `getObject` or `saveObject` failure that later succeeds is not modelled.
- Transient expiry: TTLs are stored, but no clock advances.
- Concurrent requests racing on the cache or the remote index.
- Full `strip_tags` parsing (for example, `<` followed by a space is still treated as a tag opener).
- `mb_strimwidth` double-width characters, and widths 1 and 2; the only positive width used is 125.
- Key order inside PHP arrays: records, action lists and column lists are maps.
- Post ids are natural numbers. The string ids `$_POST['ids']` carries, and `$postID` differing from `$post->ID`, are not modelled.
- `get_field` without ACF loaded inside `save` (a fatal error in the source), and `WP_Error` results from `wp_get_post_terms` or `get_term`.
- `tax_query` child-term inclusion: a post matches a term only when tagged with it directly.
- Loose `==`, which compares numeric strings as numbers; screen and type comparisons are plain string equality.
- The Post, Page, Eat and Video classes, `RegisterInterface` and `Commands` are not part of this model. `Plugin.Register` takes their constructors as a parameter.
- `Plugin.Search` (`Main::search`) is modelled as the constant null and has no contract worth stating.
- IndexGateway.Save: a record whose `objectID` is missing or not a string is treated as rejected by the client (a throw), not stored under a converted key.
- RecordBuilder.TaxonomyFlattening: a taxonomy key already present in the record (set by `extraFields` or an ACF field) is replaced, not merged entry by entry as PHP's nested assignment would do.

=== FILE: cocktail.dfy ===
/**
  The `cocktail` post type: three plain ACF fields, eight plain taxonomies,
  a hidden flag named `search_hidden`, and index settings that make every
  flattened field searchable and rank by title.
 */
module Cocktail {
  import opened Php
  import opened Wordpress
  import opened RecordBuilder
  import opened IndexGateway
  import opened Lifecycle

  const SearchableFields: seq<string> := ["post_title", "content", "post_thumbnail"]
  const AcfNames: seq<string> := ["subtitle", "ingredients", "steps"]
  const Taxonomies: seq<string> :=
    ["spirit", "flavour", "cocktail-types", "appearance", "thematic", "taste", "occasion", "tool"]
  const HiddenFlag: string := "search_hidden"

  /** `array_merge` of lists: their concatenation, renumbered. */
  function SearchableAttributes(): seq<string> {
    SearchableFields + AcfNames + Taxonomies
  }

  /** The attributes keep declaration order: three base fields, then the ACF fields, then the taxonomies. */
  lemma SearchableAttributesOrder()
    ensures var a := SearchableAttributes();
            && |a| == 14
            && a[..3] == SearchableFields && a[3..6] == AcfNames && a[6..] == Taxonomies
            && a[0] == "post_title" && a[3] == "subtitle" && a[6] == "spirit" && a[13] == "tool"
  {
  }

  function StrList(xs: seq<string>): (r: Value)
    ensures r.List? && |r.items| == |xs|
    ensures forall i :: 0 <= i < |xs| ==> r.items[i] == Str(xs[i])
  {
    List(seq(|xs|, i requires 0 <= i < |xs| => Str(xs[i])))
  }

  /** The `config` entry pushed by `setSettings`. */
  function Config(): (r: Value)
    ensures r.Dict? && r.entries.Keys == {"searchableAttributes", "customRanking"}
    ensures r.entries["searchableAttributes"] == StrList(SearchableAttributes())
    ensures r.entries["customRanking"].List? && r.entries["customRanking"].items == [Str("asc(post_title)")]
  {
    Dict(map[
      "searchableAttributes" := StrList(SearchableAttributes()),
      "customRanking" := StrList(["asc(post_title)"])])
  }

  function PlainFields(names: seq<string>): (r: seq<AcfField>)
    ensures |r| == |names|
    ensures forall i :: 0 <= i < |names| ==> r[i] == Plain(names[i])
  {
    seq(|names|, i requires 0 <= i < |names| => Plain(names[i]))
  }

  function SimpleTaxonomies(names: seq<string>): (r: seq<TaxonomyField>)
    ensures |r| == |names|
    ensures forall i :: 0 <= i < |names| ==> r[i] == Simple(names[i])
  {
    seq(|names|, i requires 0 <= i < |names| => Simple(names[i]))
  }

  /** The settings the constructor hands to its parent, for the post type it was registered under. */
  function Settings(postType: string): (r: IndexSettings)
    ensures r.postType == postType && r.hiddenFlagField == HiddenFlag
    ensures r.acfFields == PlainFields(AcfNames) && r.taxonomies == SimpleTaxonomies(Taxonomies)
    ensures r.config == Config()
    ensures r.positional == [Dict(map["forwardToReplicas" := Bool(true)])]
  {
    IndexSettings(
      PlainFields(AcfNames),
      SimpleTaxonomies(Taxonomies),
      postType,
      HiddenFlag,
      Config(),
      [Dict(map["forwardToReplicas" := Bool(true)])])
  }

  /** `extraFields`: every field already has its final shape, so the record passes through. */
  function ExtraFields(data: Record, p: Post): (r: Record)
    ensures r == data
  {
    data
  }

  /**
    `new Cocktail($post_type, $index_name, $client)`: the synchronizer and
    its settings both serve the post type it was built for.
   */
  function Make(postType: string, indexName: string): (r: Synchronizer)
    ensures r.postType == postType && r.settings.postType == postType
    ensures r.settings.hiddenFlagField == "search_hidden"
    ensures r.indexNameBase == indexName
  {
    Synchronizer(postType, indexName, Settings(postType), ExtraFields)
  }

  lemma {:induction false} PlainFieldsDeclare(names: seq<string>)
    ensures AcfDeclaredAll(PlainFields(names)) == set n | n in names
    decreases |names|
  {
    if |names| > 0 {
      PlainFieldsDeclare(names[1..]);
      assert PlainFields(names)[1..] == PlainFields(names[1..]);
      assert (set n | n in names) == {names[0]} + (set n | n in names[1..]);
    }
  }

  lemma SimpleTaxonomiesName(names: seq<string>)
    ensures TaxonomyNames(SimpleTaxonomies(names)) == set n | n in names
  {
    var taxes := SimpleTaxonomies(names);
    forall n | n in names
      ensures n in TaxonomyNames(taxes)
    {
      var i :| 0 <= i < |names| && names[i] == n;
      assert TaxonomyName(taxes[i]) == n;
    }
  }

  /**
    Every key the ACF and taxonomy stages write for a cocktail is among its
    searchable attributes, and those stages never write `objectID`,
    `excerpt`, `content` or `locale`.
   */
  lemma FlattenedKeysSearchable(postType: string)
    ensures var s := Settings(postType);
            && AcfDeclaredAll(s.acfFields) + TaxonomyNames(s.taxonomies) <= set a | a in SearchableAttributes()
            && forall k :: k in {"objectID", "excerpt", "content", "locale"} ==>
                 k !in AcfDeclaredAll(s.acfFields) && k !in TaxonomyNames(s.taxonomies)
  {
    PlainFieldsDeclare(AcfNames);
    SimpleTaxonomiesName(Taxonomies);
  }

  /** A cocktail record keeps the base record's id, excerpt, content and locale. */
  lemma CocktailRecord(postType: string, w: World, p: Post)
    ensures var r := Build(Settings(postType), ExtraFields, w, p);
            var located := WithLocale(BaseRecord(Settings(postType), p), w, p);
            forall k :: k in {"objectID", "excerpt", "content", "locale"} && k in located ==>
              k in r && r[k] == located[k]
  {
    FlattenedKeysSearchable(postType);
    var s := Settings(postType);
    forall k | k in {"objectID", "excerpt", "content", "locale"} && k in WithLocale(BaseRecord(s, p), w, p)
      ensures k in Build(s, ExtraFields, w, p) && Build(s, ExtraFields, w, p)[k] == WithLocale(BaseRecord(s, p), w, p)[k]
    {
      BuildPrecedence(s, ExtraFields, w, p, k);
    }
  }

  /** The cocktail synchronizer meets the objectID condition the lifecycle properties rely on. */
  lemma CocktailKeepsObjectId(postType: string, indexName: string)
    ensures KeepsObjectId(GatewayOf(Make(postType, indexName)))
  {
    FlattenedKeysSearchable(postType);
  }

  /** One edit hook and one delete hook per cocktail taxonomy, after the five fixed hooks. */
  lemma CocktailHooks(postType: string, indexName: string)
    ensures var h := Hooks(Make(postType, indexName));
            && |h| == 21
            && forall t :: t in Taxonomies ==> "edited_" + t in h && "delete_" + t in h
  {
    var taxes := Settings(postType).taxonomies;
    forall t | t in Taxonomies
      ensures "edited_" + t in Hooks(Make(postType, indexName)) && "delete_" + t in Hooks(Make(postType, indexName))
    {
      var i :| 0 <= i < |Taxonomies| && Taxonomies[i] == t;
      assert taxes[i] in taxes && TaxonomyName(taxes[i]) == t;
    }
  }

  /** `cli_set_settings` on a cocktail index pushes exactly this configuration. */
  lemma CocktailSettingsPushed(postType: string, indexName: string, st: State,
                               remote: Remote, locale: string)
    ensures var r := CliSetSettings(Make(postType, indexName), st, remote, locale);
            r.Done? ==> && indexName in r.st.settings
                        && r.st.settings[indexName] == Config()
                        && r.st.settings[indexName].entries.Keys == {"searchableAttributes", "customRanking"}
                        && "forwardToReplicas" !in r.st.settings[indexName].entries
  {
  }
}

=== FILE: decimal.dfy ===
/**
  Decimal rendering of natural numbers, as PHP does when an integer is
  interpolated into a string or joined with `implode`. Used for post ids
  inside `objectID`s and cache keys.
 */
module Decimal {

  predicate IsDigit(c: char) {
    '0' <= c <= '9'
  }

  predicate AllDigits(s: string) {
    forall i :: 0 <= i < |s| ==> IsDigit(s[i])
  }

  function DigitChar(d: nat): (c: char)
    requires d < 10
    ensures IsDigit(c)
    ensures DigitValue(c) == d
  {
    (('0' as int) + d) as char
  }

  function DigitValue(c: char): nat
    requires IsDigit(c)
  {
    (c as int) - ('0' as int)
  }

  /** The decimal spelling of `n`, most significant digit first, no leading zeros. */
  function FromNat(n: nat): (r: string)
    ensures 1 <= |r|
    ensures AllDigits(r)
    ensures n < 10 <==> |r| == 1
  {
    if n < 10 then [DigitChar(n)] else FromNat(n / 10) + [DigitChar(n % 10)]
  }

  /** Reads a string of digits back as a number. */
  function ToNat(s: string): nat
    requires AllDigits(s)
  {
    if |s| == 0 then 0 else ToNat(s[..|s| - 1]) * 10 + DigitValue(s[|s| - 1])
  }

  /** Reading back the decimal spelling gives the number again. */
  lemma {:induction false} ToNatFromNat(n: nat)
    ensures ToNat(FromNat(n)) == n
  {
    if n >= 10 {
      var r := FromNat(n);
      assert r[..|r| - 1] == FromNat(n / 10);
      ToNatFromNat(n / 10);
    }
  }

  /** Different numbers are spelled differently. */
  lemma FromNatInjective(m: nat, n: nat)
    ensures FromNat(m) == FromNat(n) ==> m == n
  {
    ToNatFromNat(m);
    ToNatFromNat(n);
  }

  /** Length of the longest run of digits that ends the string. */
  function TrailingDigits(s: string): (k: nat)
    ensures k <= |s|
  {
    if |s| == 0 || !IsDigit(s[|s| - 1]) then 0 else 1 + TrailingDigits(s[..|s| - 1])
  }

  /** After a non-digit separator, the trailing digit run is exactly the digits appended. */
  lemma {:induction false} TrailingDigitsAfterSeparator(a: string, sep: char, y: string)
    requires !IsDigit(sep) && AllDigits(y)
    ensures TrailingDigits(a + [sep] + y) == |y|
  {
    if |y| > 0 {
      var s := a + [sep] + y;
      assert s[..|s| - 1] == a + [sep] + y[..|y| - 1];
      TrailingDigitsAfterSeparator(a, sep, y[..|y| - 1]);
    }
  }

  /**
    A name, a non-digit separator and a number, glued together, determine the
    name and the number: the separator's last occurrence sits right before the
    digits.
   */
  lemma JoinInjective(sep: char, a: string, m: nat, b: string, n: nat)
    requires !IsDigit(sep)
    ensures a + [sep] + FromNat(m) == b + [sep] + FromNat(n) ==> a == b && m == n
  {
    var x, y := FromNat(m), FromNat(n);
    var s, t := a + [sep] + x, b + [sep] + y;
    if s == t {
      TrailingDigitsAfterSeparator(a, sep, x);
      TrailingDigitsAfterSeparator(b, sep, y);
      assert x == s[|a| + 1..];
      assert y == t[|b| + 1..];
      assert a == s[..|a|];
      assert b == t[..|b|];
      FromNatInjective(m, n);
    }
  }
}

=== FILE: index_gateway.dfy ===
/**
  `AlgoliaIndex`: one handle on a remote index, fronted by the WordPress
  transient cache. The cache, the remote records, the settings pushed to
  each index and the log of calls into the search client form one state
  record that every operation threads through. Whether a remote call fails
  is an abstract predicate; what a search answers is an abstract function.
 */
module IndexGateway {
  import opened Php
  import opened Decimal
  import opened Wordpress
  import opened RecordBuilder

  /** Transient lifetimes, in seconds. */
  const IndexTtl: nat := 3600
  const ObjectTtl: nat := 3600
  const QueryTtl: nat := 600

  /** A transient: the stored value and the lifetime it was stored with. */
  datatype Entry = Entry(value: Value, ttl: nat)

  /** Calls into the search client. */
  datatype Call =
    | InitIndex(index: string)
    | SetSettings(index: string, settings: Value)
    | SaveObject(index: string, record: Record)
    | DeleteObject(index: string, objectId: string)
    | GetObject(index: string, objectId: string, attributesToRetrieve: string)
    | Search(index: string, query: string, filters: string, hitsPerPage: nat)

  datatype State = State(
    cache: map<string, Entry>,                // transients
    records: map<(string, string), Record>,   // remote records by (index name, objectID)
    settings: map<string, Value>,             // last settings pushed to each index
    log: seq<Call>)                           // every call made into the search client

  /** The remote side: which calls throw, and what a search returns. */
  datatype Remote = Remote(fails: Call -> bool, answer: Call -> Value)

  /** A completed operation, or one a thrown exception cut short (its earlier effects stay). */
  datatype Outcome<T> = Done(st: State, value: T) | Thrown(st: State)

  /** The synchronizer-side view of one index: its name, the post type's settings and hook. */
  datatype Gateway = Gateway(indexName: string, settings: IndexSettings, extra: Extension)

  function IndexKey(indexName: string): string {
    "wp-algolia-index-initialized-" + indexName
  }

  function ObjectKey(postType: string, id: nat): string {
    "wp-algolia-index-object-" + postType + "-" + FromNat(id)
  }

  function QueryKey(indexName: string, locale: string): string {
    "wp-algolia-query-" + indexName + "-" + locale
  }

  /** The three key families never collide, so invalidating one never touches another. */
  lemma KeyFamiliesDisjoint(name: string, postType: string, id: nat, qname: string, locale: string)
    ensures IndexKey(name) != ObjectKey(postType, id)
    ensures IndexKey(name) != QueryKey(qname, locale)
    ensures ObjectKey(postType, id) != QueryKey(qname, locale)
  {
    assert IndexKey(name)[17] == 'i' && ObjectKey(postType, id)[17] == 'o';
    assert IndexKey(name)[11] == 'i' && QueryKey(qname, locale)[11] == 'q';
    assert ObjectKey(postType, id)[11] == 'i';
  }

  /** Existence flags of different posts, or of different post types, live under different keys. */
  lemma ObjectKeyInjective(a: string, m: nat, b: string, n: nat)
    ensures ObjectKey(a, m) == ObjectKey(b, n) <==> a == b && m == n
  {
    var pre := "wp-algolia-index-object-";
    assert ObjectKey(a, m) == (pre + a) + "-" + FromNat(m);
    assert ObjectKey(b, n) == (pre + b) + "-" + FromNat(n);
    JoinInjective('-', pre + a, m, pre + b, n);
    if pre + a == pre + b {
      assert a == (pre + a)[|pre|..];
      assert b == (pre + b)[|pre|..];
    }
  }

  /** The client-side index object a transient memoizes. */
  function Handle(indexName: string): Value {
    Obj("SearchIndex", map["indexName" := Str(indexName)])
  }

  /** `get_transient`: false on a miss. */
  function Cached(st: State, key: string): Value {
    if key in st.cache then st.cache[key].value else Bool(false)
  }

  function Logged(st: State, c: Call): State {
    st.(log := st.log + [c])
  }

  /** `init_index(false)`, run by the constructor: reuse a cached handle or create and cache one. */
  function Open(g: Gateway, st: State): (r: State)
    ensures Truthy(Cached(r, IndexKey(g.indexName)))
    ensures r.records == st.records && r.settings == st.settings
    ensures forall k :: k != IndexKey(g.indexName) && k in st.cache ==> k in r.cache && r.cache[k] == st.cache[k]
    ensures forall k :: k != IndexKey(g.indexName) && k in r.cache ==> k in st.cache
  {
    var key := IndexKey(g.indexName);
    if Truthy(Cached(st, key)) then st
    else
      var st1 := Logged(st, InitIndex(g.indexName));
      st1.(cache := st1.cache[key := Entry(Handle(g.indexName), IndexTtl)])
  }

  function PushSettings(g: Gateway, st: State, remote: Remote): Outcome<()> {
    var c := SetSettings(g.indexName, g.settings.config);
    var st1 := Logged(st, c);
    if remote.fails(c) then Thrown(st1)
    else Done(st1.(settings := st1.settings[g.indexName := g.settings.config]), ())
  }

  /**
    `init_index($settings)`: a cached handle is reused without calling
    `initIndex`; otherwise a handle is created and, once settings (if asked
    for) went through, cached for an hour. Settings are pushed exactly when
    asked for.
   */
  function InitIndexOp(g: Gateway, st: State, remote: Remote, push: bool): (r: Outcome<()>)
    ensures var hit := Truthy(Cached(st, IndexKey(g.indexName)));
            var pushed := if push then [SetSettings(g.indexName, g.settings.config)] else [];
            && r.st.log == st.log + (if hit then [] else [InitIndex(g.indexName)]) + pushed
            && (r.Thrown? <==> push && remote.fails(SetSettings(g.indexName, g.settings.config)))
            && (r.Done? && push ==> r.st.settings == st.settings[g.indexName := g.settings.config])
            && (!push ==> r.st.settings == st.settings)
            && (r.Done? ==> Truthy(Cached(r.st, IndexKey(g.indexName))))
            && (!hit && r.Done? ==> r.st.cache == st.cache[IndexKey(g.indexName) := Entry(Handle(g.indexName), IndexTtl)])
            && (hit || r.Thrown? ==> r.st.cache == st.cache)
            && r.st.records == st.records
  {
    var key := IndexKey(g.indexName);
    if Truthy(Cached(st, key)) then
      if push then PushSettings(g, st, remote) else Done(st, ())
    else
      var st1 := Logged(st, InitIndex(g.indexName));
      if push then
        match PushSettings(g, st1, remote)
        case Thrown(st2) => Thrown(st2)
        case Done(st2, _) => Done(st2.(cache := st2.cache[key := Entry(Handle(g.indexName), IndexTtl)]), ())
      else Done(st1.(cache := st1.cache[key := Entry(Handle(g.indexName), IndexTtl)]), ())
  }

  /** The constructor's `init_index()` is `Open`, and it cannot throw. */
  lemma OpenIsInitIndex(g: Gateway, st: State, remote: Remote)
    ensures InitIndexOp(g, st, remote, false) == Done(Open(g, st), ())
  {
  }

  /** Once a handle is cached, opening again changes nothing. */
  lemma OpenIdempotent(g: Gateway, st: State)
    ensures Open(g, Open(g, st)) == Open(g, st)
  {
  }

  /** The locale `save` invalidates the query cache for: `"{$data['locale']}"`, empty when unset. */
  function RecordLocale(data: Record): Option<string> {
    Interpolate(Lookup(data, "locale"))
  }

  /**
    `save`: build the record, drop the post's existence flag and the query
    cache of the record's locale, then upsert the whole record under its
    objectID (replacing any earlier one).
   */
  function Save(g: Gateway, st: State, remote: Remote, w: World, p: Post): (r: Outcome<()>)
    ensures var data := Build(g.settings, g.extra, w, p);
            var okey := ObjectKey(g.settings.postType, p.id);
            && r.st.records.Keys >= st.records.Keys
            && r.st.settings == st.settings
            && okey !in r.st.cache
            && (RecordLocale(data).Some? ==> QueryKey(g.indexName, RecordLocale(data).value) !in r.st.cache)
            && (forall k :: k in r.st.cache ==> k in st.cache && r.st.cache[k] == st.cache[k])
            && (forall k :: (k in st.cache && k != okey
                  && (RecordLocale(data).None? || k != QueryKey(g.indexName, RecordLocale(data).value))) ==>
                  k in r.st.cache)
            && (r.Done? <==> RecordLocale(data).Some? && !remote.fails(SaveObject(g.indexName, data))
                               && "objectID" in data && data["objectID"].Str?)
            && (RecordLocale(data).Some? ==> r.st.log == st.log + [SaveObject(g.indexName, data)])
            && (RecordLocale(data).None? ==> r.st.log == st.log)
            && (r.Done? ==> r.st.records == st.records[(g.indexName, data["objectID"].s) := data])
            && (r.Thrown? ==> r.st.records == st.records)
  {
    var data := Build(g.settings, g.extra, w, p);
    var st1 := st.(cache := st.cache - {ObjectKey(g.settings.postType, p.id)});
    match RecordLocale(data)
    case None => Thrown(st1)
    case Some(locale) =>
      var st2 := st1.(cache := st1.cache - {QueryKey(g.indexName, locale)});
      var c := SaveObject(g.indexName, data);
      var st3 := Logged(st2, c);
      if remote.fails(c) || !("objectID" in data && data["objectID"].Str?) then Thrown(st3)
      else Done(st3.(records := st3.records[(g.indexName, data["objectID"].s) := data]), ())
  }

  /**
    `delete`: remove the remote record by objectID (a missing record is not
    an error), then the post's existence flag. The query cache is untouched;
    when the remote call throws, the flag stays as well.
   */
  function Delete(g: Gateway, st: State, remote: Remote, id: nat): (r: Outcome<()>)
    ensures var c := DeleteObject(g.indexName, ObjectId(g.settings.postType, id));
            && r.st.log == st.log + [c]
            && r.st.settings == st.settings
            && (r.Done? <==> !remote.fails(c))
            && (r.Done? ==> r.st.records == st.records - {(g.indexName, ObjectId(g.settings.postType, id))})
            && (r.Done? ==> r.st.cache == st.cache - {ObjectKey(g.settings.postType, id)})
            && (r.Thrown? ==> r.st.records == st.records && r.st.cache == st.cache)
  {
    var oid := ObjectId(g.settings.postType, id);
    var c := DeleteObject(g.indexName, oid);
    var st1 := Logged(st, c);
    if remote.fails(c) then Thrown(st1)
    else Done(st1.(records := st1.records - {(g.indexName, oid)},
                   cache := st1.cache - {ObjectKey(g.settings.postType, id)}), ())
  }

  /**
    `record_exist`: a truthy cached flag is returned as is, with no remote
    call; otherwise one `getObject` decides. Success caches `true` for an
    hour and answers true; any failure (including a missing record) answers
    false and caches nothing. Nothing is ever thrown.
   */
  function RecordExist(g: Gateway, st: State, remote: Remote, id: nat): (r: Outcome<Value>)
    ensures r.Done?
    ensures r.st.records == st.records && r.st.settings == st.settings
    ensures var key := ObjectKey(g.settings.postType, id);
            var c := GetObject(g.indexName, ObjectId(g.settings.postType, id), "objectID");
            var found := (g.indexName, ObjectId(g.settings.postType, id)) in st.records && !remote.fails(c);
            && (Truthy(Cached(st, key)) ==> r.st == st && r.value == Cached(st, key))
            && (!Truthy(Cached(st, key)) ==>
                  && r.st.log == st.log + [c]
                  && r.value == Bool(found)
                  && r.st.cache == (if found then st.cache[key := Entry(Bool(true), ObjectTtl)] else st.cache))
  {
    var key := ObjectKey(g.settings.postType, id);
    var oid := ObjectId(g.settings.postType, id);
    var cached := Cached(st, key);
    if !Truthy(cached) then
      var c := GetObject(g.indexName, oid, "objectID");
      var st1 := Logged(st, c);
      if (g.indexName, oid) in st.records && !remote.fails(c) then
        Done(st1.(cache := st1.cache[key := Entry(Bool(true), ObjectTtl)]), Bool(true))
      else Done(st1, Bool(false))
    else Done(st, cached)
  }

  /** `get_cached_query`. */
  function CachedQuery(g: Gateway, st: State, locale: string): Value {
    Cached(st, QueryKey(g.indexName, locale))
  }

  /** `cache_query`: the result under the locale's key, for ten minutes. */
  function CacheQuery(g: Gateway, st: State, data: Value, locale: string): (r: State)
    ensures CachedQuery(g, r, locale) == data
    ensures r.cache.Keys == st.cache.Keys + {QueryKey(g.indexName, locale)}
    ensures r.cache[QueryKey(g.indexName, locale)].ttl == QueryTtl
    ensures r.records == st.records && r.settings == st.settings && r.log == st.log
    ensures forall k :: k != QueryKey(g.indexName, locale) && k in st.cache ==> k in r.cache && r.cache[k] == st.cache[k]
  {
    st.(cache := st.cache[QueryKey(g.indexName, locale) := Entry(data, QueryTtl)])
  }

  /** A gateway whose ACF and taxonomy keys leave `objectID` alone stores records under the canonical id. */
  ghost predicate KeepsObjectId(g: Gateway) {
    && "objectID" !in AcfDeclaredAll(g.settings.acfFields)
    && "objectID" !in TaxonomyNames(g.settings.taxonomies)
    && forall d: Record, p: Post :: "objectID" in d ==> "objectID" in g.extra(d, p) && g.extra(d, p)["objectID"] == d["objectID"]
  }

  lemma BuildObjectId(g: Gateway, w: World, p: Post)
    requires KeepsObjectId(g)
    ensures var data := Build(g.settings, g.extra, w, p);
            "objectID" in data && data["objectID"] == Str(ObjectId(g.settings.postType, p.id))
  {
    var base := BaseRecord(g.settings, p);
    assert base["objectID"] == Str(ObjectId(g.settings.postType, p.id));
    var located := WithLocale(base, w, p);
    assert located["objectID"] == base["objectID"];
    var extended := g.extra(located, p);
    assert "objectID" in extended && extended["objectID"] == located["objectID"];
    BuildPrecedence(g.settings, g.extra, w, p, "objectID");
  }

  /**
    After a successful save, asking whether the post exists costs exactly one
    remote call, which answers true (unless that call itself fails); asking
    again answers true from the cache with no further call.
   */
  lemma SaveThenExistsTwice(g: Gateway, st: State, remote: Remote, w: World, p: Post)
    requires KeepsObjectId(g)
    requires Save(g, st, remote, w, p).Done?
    requires !remote.fails(GetObject(g.indexName, ObjectId(g.settings.postType, p.id), "objectID"))
    ensures var st1 := Save(g, st, remote, w, p).st;
            var first := RecordExist(g, st1, remote, p.id);
            var second := RecordExist(g, first.st, remote, p.id);
            && first.value == Bool(true)
            && first.st.log == st1.log + [GetObject(g.indexName, ObjectId(g.settings.postType, p.id), "objectID")]
            && Truthy(second.value)
            && second.st == first.st
  {
    BuildObjectId(g, w, p);
  }

  /** After a successful delete, the post reads as absent and the negative answer is not cached. */
  lemma DeleteThenExists(g: Gateway, st: State, remote: Remote, id: nat)
    requires Delete(g, st, remote, id).Done?
    ensures var st1 := Delete(g, st, remote, id).st;
            var after := RecordExist(g, st1, remote, id);
            && after.value == Bool(false)
            && after.st.cache == st1.cache
  {
  }

  /** A delete leaves every query-cache entry and every handle in place. */
  lemma DeleteKeepsQueries(g: Gateway, st: State, remote: Remote, id: nat, qname: string, locale: string)
    ensures var st1 := Delete(g, st, remote, id).st;
            && (QueryKey(qname, locale) in st.cache ==>
                  QueryKey(qname, locale) in st1.cache
                  && st1.cache[QueryKey(qname, locale)] == st.cache[QueryKey(qname, locale)])
            && (IndexKey(qname) in st.cache ==>
                  IndexKey(qname) in st1.cache && st1.cache[IndexKey(qname)] == st.cache[IndexKey(qname)])
  {
    KeyFamiliesDisjoint(qname, g.settings.postType, id, qname, locale);
  }

  /** Save followed by delete of the same post leaves no remote record under its objectID. */
  lemma SaveThenDelete(g: Gateway, st: State, remote: Remote, w: World, p: Post)
    requires KeepsObjectId(g)
    requires Save(g, st, remote, w, p).Done?
    requires Delete(g, Save(g, st, remote, w, p).st, remote, p.id).Done?
    ensures (g.indexName, ObjectId(g.settings.postType, p.id)) in Save(g, st, remote, w, p).st.records
    ensures (g.indexName, ObjectId(g.settings.postType, p.id)) !in Delete(g, Save(g, st, remote, w, p).st, remote, p.id).st.records
  {
    BuildObjectId(g, w, p);
  }
}

=== FILE: lifecycle.dfy ===
/**
  `RegisterAbstract`: the per-post-type synchronizer. WordPress events
  (a post saved or deleted, a bulk action, a term edited, a CLI reindex)
  are turned into a plan — a sequence of saves and deletes — and the plan
  is run against a fresh gateway per step, as the source builds a new
  `AlgoliaIndex` on every `algolia_index()` call. Nothing catches a thrown
  remote error, so a throw ends the run with the earlier steps' effects kept.
 */
module Lifecycle {
  import opened Php
  import opened Decimal
  import opened Wordpress
  import opened RecordBuilder
  import opened IndexGateway

  const UpdateAction: string := "wpalgolia_index_update"
  const DeleteAction: string := "wpalgolia_index_delete"
  const StatusColumn: string := "in_index"
  const SearchHits: nat := 9999

  /** One registered post type: its name, the index it writes to, its settings and `extraFields` hook. */
  datatype Synchronizer = Synchronizer(
    postType: string,
    indexNameBase: string,
    settings: IndexSettings,
    extra: Extension)

  /** `algolia_index()`: the gateway always targets the base name (`set_index_name` adds no locale). */
  function GatewayOf(sync: Synchronizer): (r: Gateway)
    ensures r.indexName == sync.indexNameBase
    ensures r.settings == sync.settings && r.extra == sync.extra
  {
    Gateway(sync.indexNameBase, sync.settings, sync.extra)
  }

  function TaxonomyHooks(taxes: seq<TaxonomyField>): (r: seq<string>)
    ensures |r| == 2 * |taxes|
    ensures forall i :: 0 <= i < |taxes| ==>
              r[2 * i] == "edited_" + TaxonomyName(taxes[i]) && r[2 * i + 1] == "delete_" + TaxonomyName(taxes[i])
  {
    if |taxes| == 0 then []
    else
      var rest := TaxonomyHooks(taxes[1..]);
      var r := ["edited_" + TaxonomyName(taxes[0]), "delete_" + TaxonomyName(taxes[0])] + rest;
      assert forall i :: 1 <= i < |taxes| ==> r[2 * i] == rest[2 * (i - 1)] && r[2 * i + 1] == rest[2 * (i - 1) + 1];
      r
  }

  /**
    The actions the constructor registers: the two status endpoints, the
    screen hook, `wp_insert_post`, the type's delete hook, and an edit and a
    delete hook for every indexed taxonomy, in declaration order.
   */
  function Hooks(sync: Synchronizer): (r: seq<string>)
    ensures |r| == 5 + 2 * |sync.settings.taxonomies|
    ensures r[..5] == ["wp_ajax_check_algolia_status_" + sync.postType,
                       "wp_ajax_nopriv_check_algolia_status_" + sync.postType,
                       "current_screen",
                       "wp_insert_post",
                       "delete_post_" + sync.postType]
    ensures r[5..] == TaxonomyHooks(sync.settings.taxonomies)
    ensures forall t :: t in sync.settings.taxonomies ==>
              "edited_" + TaxonomyName(t) in r && "delete_" + TaxonomyName(t) in r
  {
    var taxes := sync.settings.taxonomies;
    var fixed := ["wp_ajax_check_algolia_status_" + sync.postType,
                  "wp_ajax_nopriv_check_algolia_status_" + sync.postType,
                  "current_screen",
                  "wp_insert_post",
                  "delete_post_" + sync.postType];
    var r := fixed + TaxonomyHooks(taxes);
    assert forall i :: 0 <= i < |taxes| ==> r[5 + 2 * i] == TaxonomyHooks(taxes)[2 * i] && r[5 + 2 * i + 1] == TaxonomyHooks(taxes)[2 * i + 1];
    r
  }

  /** `register_bulk_update`: adds the two actions and keeps every other one. */
  function RegisterBulkActions(actions: map<string, string>): (r: map<string, string>)
    ensures r.Keys == actions.Keys + {UpdateAction, DeleteAction}
    ensures r[UpdateAction] == "Send to Algolia index" && r[DeleteAction] == "Remove from Algolia index"
    ensures forall k :: k in actions && k != UpdateAction && k != DeleteAction ==> r[k] == actions[k]
  {
    actions[UpdateAction := "Send to Algolia index"][DeleteAction := "Remove from Algolia index"]
  }

  /** `manage_admin_columns`: adds the status column and keeps every other one. */
  function ManageColumns(columns: map<string, string>): (r: map<string, string>)
    ensures r.Keys == columns.Keys + {StatusColumn}
    ensures r[StatusColumn] == "Algolia Index"
    ensures forall k :: k in columns && k != StatusColumn ==> r[k] == columns[k]
  {
    columns[StatusColumn := "Algolia Index"]
  }

  /**
    `show_in_index`: the hidden-flag field when it is truthy, `true`
    otherwise (and always `true` without ACF). The result is never `false`.
   */
  function ShowInIndex(sync: Synchronizer, w: World, id: nat): (r: Value)
    ensures Truthy(r)
    ensures var flag := GetField(w, sync.settings.hiddenFlagField, PostOwner(id));
            && (r == Bool(true) <==> !w.acfLoaded || !Truthy(flag) || flag == Bool(true))
            && (w.acfLoaded && Truthy(flag) ==> r == flag)
  {
    if w.acfLoaded then
      var flag := GetField(w, sync.settings.hiddenFlagField, PostOwner(id));
      if Truthy(flag) then flag else Bool(true)
    else Bool(true)
  }

  datatype Op = SaveOp(post: Post) | DeleteOp(id: nat)

  datatype Decision = Ignore | Remove | Index

  /** `save_post`'s branches, in source order. */
  function Decide(sync: Synchronizer, w: World, p: Post): Decision {
    if p.isAutosave then Ignore
    else if sync.postType != p.postType then Ignore
    else if Published != p.status then Remove
    else if ShowInIndex(sync, w, p.id) == Bool(false) then Remove
    else Index
  }

  /**
    A saved post of this type is removed from the index exactly when it is
    not published, and indexed exactly when it is: the hidden-flag branch
    never fires, since `show_in_index` never answers `false`.
   */
  lemma DecideSpec(sync: Synchronizer, w: World, p: Post)
    ensures Decide(sync, w, p) == Ignore <==> p.isAutosave || p.postType != sync.postType
    ensures Decide(sync, w, p) == Remove <==> !p.isAutosave && p.postType == sync.postType && p.status != Published
    ensures Decide(sync, w, p) == Index <==> !p.isAutosave && p.postType == sync.postType && p.status == Published
  {
    var v := ShowInIndex(sync, w, p.id);
    assert Truthy(v);
  }

  function SavePostPlan(sync: Synchronizer, w: World, p: Post): seq<Op> {
    match Decide(sync, w, p)
    case Ignore => []
    case Remove => [DeleteOp(p.id)]
    case Index => [SaveOp(p)]
  }

  /**
    One id of `handle_bulk_update`: nothing for an unknown id or an unknown
    action; a delete for an existing post; a save of the post for an update
    exactly when `show_in_index` is strictly `true`.
   */
  function BulkStep(sync: Synchronizer, w: World, action: string, id: nat): (r: seq<Op>)
    ensures GetPost(w.posts, id).None? || (action != UpdateAction && action != DeleteAction) ==> r == []
    ensures action == DeleteAction && GetPost(w.posts, id).Some? ==> r == [DeleteOp(id)]
    ensures action == UpdateAction && GetPost(w.posts, id).Some? ==>
              (r == [SaveOp(GetPost(w.posts, id).value)] <==> ShowInIndex(sync, w, id) == Bool(true))
              && (r == [] <==> ShowInIndex(sync, w, id) != Bool(true))
  {
    match GetPost(w.posts, id)
    case None => []
    case Some(p) =>
      if action == UpdateAction then
        (if ShowInIndex(sync, w, id) == Bool(true) then [SaveOp(p)] else [])
      else if action == DeleteAction then [DeleteOp(id)]
      else []
  }

  function BulkPlan(sync: Synchronizer, w: World, action: string, ids: seq<nat>): (r: seq<Op>)
    ensures |r| <= |ids|
  {
    if |ids| == 0 then [] else BulkStep(sync, w, action, ids[0]) + BulkPlan(sync, w, action, ids[1..])
  }

  /** The ids are handled one after another: a split list gives the two plans back to back. */
  lemma {:induction false} BulkPlanAppend(sync: Synchronizer, w: World, action: string, ids1: seq<nat>, ids2: seq<nat>)
    ensures BulkPlan(sync, w, action, ids1 + ids2)
            == BulkPlan(sync, w, action, ids1) + BulkPlan(sync, w, action, ids2)
    decreases |ids1|
  {
    if |ids1| == 0 {
      assert ids1 + ids2 == ids2;
    } else {
      assert (ids1 + ids2)[0] == ids1[0];
      assert (ids1 + ids2)[1..] == ids1[1..] + ids2;
      BulkPlanAppend(sync, w, action, ids1[1..], ids2);
      var h := BulkStep(sync, w, action, ids1[0]);
      ConcatAssoc(h, BulkPlan(sync, w, action, ids1[1..]), BulkPlan(sync, w, action, ids2));
    }
  }

  /** A single id's plan is that id's step. */
  lemma BulkPlanSingle(sync: Synchronizer, w: World, action: string, id: nat)
    ensures BulkPlan(sync, w, action, [id]) == BulkStep(sync, w, action, id)
  {
    assert [id][1..] == [];
  }

  /**
    When every listed id names a post, a bulk delete deletes them in request
    order, one delete per occurrence.
   */
  lemma {:induction false} BulkDeleteInOrder(sync: Synchronizer, w: World, ids: seq<nat>)
    requires forall i :: 0 <= i < |ids| ==> GetPost(w.posts, ids[i]).Some?
    ensures var r := BulkPlan(sync, w, DeleteAction, ids);
            |r| == |ids| && forall i :: 0 <= i < |ids| ==> r[i] == DeleteOp(ids[i])
    decreases |ids|
  {
    if |ids| > 0 {
      assert forall i :: 0 <= i < |ids[1..]| ==> ids[1..][i] == ids[i + 1];
      BulkDeleteInOrder(sync, w, ids[1..]);
      var rest := BulkPlan(sync, w, DeleteAction, ids[1..]);
      var r := BulkPlan(sync, w, DeleteAction, ids);
      assert r == [DeleteOp(ids[0])] + rest;
      forall i | 0 <= i < |ids| ensures r[i] == DeleteOp(ids[i]) {
        if i > 0 { assert r[i] == rest[i - 1]; }
      }
    }
  }

  /**
    A bulk update saves exactly the listed posts that exist and whose
    `show_in_index` is strictly `true`; a bulk delete deletes exactly the
    listed ids that name an existing post; any other action does nothing.
   */
  lemma {:induction false} BulkPlanSpec(sync: Synchronizer, w: World, action: string, ids: seq<nat>)
    ensures var r := BulkPlan(sync, w, action, ids);
            && (action != UpdateAction && action != DeleteAction ==> r == [])
            && (action == DeleteAction ==>
                  forall op :: op in r <==> op.DeleteOp? && op.id in ids && GetPost(w.posts, op.id).Some?)
            && (action == UpdateAction ==>
                  forall op :: op in r <==>
                    op.SaveOp? && exists i :: 0 <= i < |ids| && GetPost(w.posts, ids[i]) == Some(op.post)
                                               && ShowInIndex(sync, w, ids[i]) == Bool(true))
  {
    if |ids| > 0 {
      BulkPlanSpec(sync, w, action, ids[1..]);
      var r := BulkPlan(sync, w, action, ids);
      var head := BulkStep(sync, w, action, ids[0]);
      var rest := BulkPlan(sync, w, action, ids[1..]);
      assert r == head + rest;
      assert forall op :: op in r <==> op in head || op in rest;
      if action == DeleteAction {
        assert forall id :: id in ids <==> id == ids[0] || id in ids[1..];
      }
      if action == UpdateAction {
        forall op: Op | op.SaveOp?
          ensures (exists i :: 0 <= i < |ids| && GetPost(w.posts, ids[i]) == Some(op.post)
                                 && ShowInIndex(sync, w, ids[i]) == Bool(true))
                  <==> (op in head || op in rest)
        {
          if exists i :: 0 <= i < |ids| && GetPost(w.posts, ids[i]) == Some(op.post) && ShowInIndex(sync, w, ids[i]) == Bool(true) {
            var i :| 0 <= i < |ids| && GetPost(w.posts, ids[i]) == Some(op.post) && ShowInIndex(sync, w, ids[i]) == Bool(true);
            if i > 0 {
              assert ids[1..][i - 1] == ids[i];
            }
          }
          if op in rest {
            var j :| 0 <= j < |ids[1..]| && GetPost(w.posts, ids[1..][j]) == Some(op.post) && ShowInIndex(sync, w, ids[1..][j]) == Bool(true);
            assert ids[j + 1] == ids[1..][j];
          }
        }
      }
    }
  }

  /** Saves of the given posts, in order. */
  function SaveAll(posts: seq<Post>): (r: seq<Op>)
    ensures |r| == |posts|
    ensures forall i :: 0 <= i < |posts| ==> r[i] == SaveOp(posts[i])
  {
    seq(|posts|, i requires 0 <= i < |posts| => SaveOp(posts[i]))
  }

  lemma SaveAllMembers(posts: seq<Post>)
    ensures forall op :: op in SaveAll(posts) <==> op.SaveOp? && op.post in posts
  {
    forall op: Op | op.SaveOp? && op.post in posts
      ensures op in SaveAll(posts)
    {
      var i :| 0 <= i < |posts| && posts[i] == op.post;
      assert SaveAll(posts)[i] == op;
    }
  }

  /** The posts `update_taxonomy_posts` re-saves for a term: published posts of this type tagged with it. */
  function TermPosts(sync: Synchronizer, w: World, taxonomy: string, termId: nat): seq<Post> {
    Filter(w.posts, (p: Post) => p.postType == sync.postType && p.status == Published && InTerm(w, p, taxonomy, termId))
  }

  function CascadePlan(sync: Synchronizer, w: World, termId: nat): seq<Op> {
    match GetTerm(w, termId)
    case None => []
    case Some(term) => SaveAll(TermPosts(sync, w, term.taxonomy, termId))
  }

  /**
    Editing or deleting a term re-saves exactly the published posts of this
    type tagged with that term, in listing order, and nothing when the term
    cannot be read.
   */
  lemma CascadePlanSpec(sync: Synchronizer, w: World, termId: nat)
    ensures var r := CascadePlan(sync, w, termId);
            && (GetTerm(w, termId).None? ==> r == [])
            && (GetTerm(w, termId).Some? ==>
                  r == SaveAll(TermPosts(sync, w, GetTerm(w, termId).value.taxonomy, termId)))
            && (forall op :: op in r <==>
                  && op.SaveOp?
                  && GetTerm(w, termId).Some?
                  && op.post in w.posts
                  && op.post.postType == sync.postType
                  && op.post.status == Published
                  && InTerm(w, op.post, GetTerm(w, termId).value.taxonomy, termId))
  {
    if GetTerm(w, termId).Some? {
      SaveAllMembers(TermPosts(sync, w, GetTerm(w, termId).value.taxonomy, termId));
    }
  }

  /** The posts `cli_reindex` lists: every published post of this type. */
  function PublishedPosts(sync: Synchronizer, w: World): seq<Post> {
    Filter(w.posts, (p: Post) => p.postType == sync.postType && p.status == Published)
  }

  /** The reindex loop: stop at the first post whose `show_in_index` is strictly `false`. */
  function ReindexSteps(sync: Synchronizer, w: World, posts: seq<Post>): seq<Op> {
    if |posts| == 0 then []
    else if ShowInIndex(sync, w, posts[0].id) == Bool(false) then []
    else [SaveOp(posts[0])] + ReindexSteps(sync, w, posts[1..])
  }

  function ReindexPlan(sync: Synchronizer, w: World): seq<Op> {
    ReindexSteps(sync, w, PublishedPosts(sync, w))
  }

  /** The early return never fires: a reindex saves every listed post, in listing order. */
  lemma {:induction false} ReindexStepsSaveAll(sync: Synchronizer, w: World, posts: seq<Post>)
    ensures ReindexSteps(sync, w, posts) == SaveAll(posts)
  {
    if |posts| > 0 {
      var v := ShowInIndex(sync, w, posts[0].id);
      assert Truthy(v);
      ReindexStepsSaveAll(sync, w, posts[1..]);
      assert SaveAll(posts) == [SaveOp(posts[0])] + SaveAll(posts[1..]);
    }
  }

  lemma ReindexPlanSpec(sync: Synchronizer, w: World)
    ensures ReindexPlan(sync, w) == SaveAll(PublishedPosts(sync, w))
    ensures forall op :: op in ReindexPlan(sync, w) <==>
              op.SaveOp? && op.post in w.posts && op.post.postType == sync.postType && op.post.status == Published
  {
    ReindexStepsSaveAll(sync, w, PublishedPosts(sync, w));
    SaveAllMembers(PublishedPosts(sync, w));
  }

  /** The remote writes in a call log, in order. */
  function Writes(log: seq<Call>): seq<Call> {
    if |log| == 0 then []
    else
      var last := log[|log| - 1];
      Writes(log[..|log| - 1]) + (if last.SaveObject? || last.DeleteObject? then [last] else [])
  }

  lemma WritesAppend(log: seq<Call>, c: Call)
    ensures Writes(log + [c]) == Writes(log) + (if c.SaveObject? || c.DeleteObject? then [c] else [])
  {
    assert (log + [c])[..|log|] == log;
  }

  /** The write a step sends. */
  function OpCall(g: Gateway, w: World, op: Op): Call {
    match op
    case SaveOp(p) => SaveObject(g.indexName, Build(g.settings, g.extra, w, p))
    case DeleteOp(id) => DeleteObject(g.indexName, ObjectId(g.settings.postType, id))
  }

  function Calls(g: Gateway, w: World, ops: seq<Op>): (r: seq<Call>)
    ensures |r| == |ops|
  {
    if |ops| == 0 then [] else [OpCall(g, w, ops[0])] + Calls(g, w, ops[1..])
  }

  /** A remote upsert keyed by the record's own objectID; a record without a string id is not stored. */
  function Upsert(index: string, records: map<(string, string), Record>, data: Record): map<(string, string), Record> {
    if "objectID" in data && data["objectID"].Str? then records[(index, data["objectID"].s) := data]
    else records
  }

  /** What one step does to the remote records. */
  function ApplyOp(g: Gateway, w: World, records: map<(string, string), Record>, op: Op): map<(string, string), Record> {
    match op
    case SaveOp(p) => Upsert(g.indexName, records, Build(g.settings, g.extra, w, p))
    case DeleteOp(id) => records - {(g.indexName, ObjectId(g.settings.postType, id))}
  }

  /** The reference semantics of a plan on the remote records alone. */
  function Replay(g: Gateway, w: World, records: map<(string, string), Record>, ops: seq<Op>): map<(string, string), Record>
    decreases |ops|
  {
    if |ops| == 0 then records else Replay(g, w, ApplyOp(g, w, records, ops[0]), ops[1..])
  }

  /** One step: a fresh gateway, then the save or the delete. */
  function Step(g: Gateway, st: State, remote: Remote, w: World, op: Op): Outcome<()> {
    var st1 := Open(g, st);
    match op
    case SaveOp(p) => Save(g, st1, remote, w, p)
    case DeleteOp(id) => Delete(g, st1, remote, id)
  }

  function Run(g: Gateway, st: State, remote: Remote, w: World, ops: seq<Op>): Outcome<()>
    decreases |ops|
  {
    if |ops| == 0 then Done(st, ())
    else
      match Step(g, st, remote, w, ops[0])
      case Thrown(st1) => Thrown(st1)
      case Done(st1, _) => Run(g, st1, remote, w, ops[1..])
  }

  lemma StepEffect(g: Gateway, st: State, remote: Remote, w: World, op: Op)
    ensures var r := Step(g, st, remote, w, op);
            && r.st.settings == st.settings
            && (r.Done? ==> Writes(r.st.log) == Writes(st.log) + [OpCall(g, w, op)])
            && (r.Done? ==> r.st.records == ApplyOp(g, w, st.records, op))
            && (r.Thrown? ==> Writes(r.st.log) == Writes(st.log) || Writes(r.st.log) == Writes(st.log) + [OpCall(g, w, op)])
  {
    var st1 := Open(g, st);
    OpenKeepsWrites(g, st);
    match op
    case SaveOp(p) =>
      var data := Build(g.settings, g.extra, w, p);
      if RecordLocale(data).Some? {
        WritesAppend(st1.log, SaveObject(g.indexName, data));
      }
    case DeleteOp(id) =>
      WritesAppend(st1.log, DeleteObject(g.indexName, ObjectId(g.settings.postType, id)));
  }

  lemma OpenKeepsWrites(g: Gateway, st: State)
    ensures Writes(Open(g, st).log) == Writes(st.log)
  {
    if !Truthy(Cached(st, IndexKey(g.indexName))) {
      WritesAppend(st.log, InitIndex(g.indexName));
    }
  }

  lemma RecordExistKeepsWrites(g: Gateway, st: State, remote: Remote, id: nat)
    ensures Writes(RecordExist(g, st, remote, id).st.log) == Writes(st.log)
  {
    if !Truthy(Cached(st, ObjectKey(g.settings.postType, id))) {
      WritesAppend(st.log, GetObject(g.indexName, ObjectId(g.settings.postType, id), "objectID"));
    }
  }

  lemma {:induction false} RunWrites(g: Gateway, st: State, remote: Remote, w: World, ops: seq<Op>)
    ensures var r := Run(g, st, remote, w, ops);
            r.Done? ==> Writes(r.st.log) == Writes(st.log) + Calls(g, w, ops)
    decreases |ops|
  {
    if |ops| > 0 {
      var s := Step(g, st, remote, w, ops[0]);
      var c := OpCall(g, w, ops[0]);
      StepEffect(g, st, remote, w, ops[0]);
      if s.Done? {
        assert Run(g, st, remote, w, ops) == Run(g, s.st, remote, w, ops[1..]);
        RunWrites(g, s.st, remote, w, ops[1..]);
        assert Calls(g, w, ops) == [c] + Calls(g, w, ops[1..]);
      }
    }
  }

  lemma {:induction false} RunWritesPrefix(g: Gateway, st: State, remote: Remote, w: World, ops: seq<Op>)
    ensures var r := Run(g, st, remote, w, ops);
            Writes(st.log) <= Writes(r.st.log) <= Writes(st.log) + Calls(g, w, ops)
    decreases |ops|
  {
    if |ops| == 0 {
      assert Writes(st.log) + Calls(g, w, ops) == Writes(st.log);
    } else {
      var s := Step(g, st, remote, w, ops[0]);
      var c := OpCall(g, w, ops[0]);
      StepEffect(g, st, remote, w, ops[0]);
      var rest := Calls(g, w, ops[1..]);
      assert Calls(g, w, ops) == [c] + rest;
      if s.Done? {
        assert Run(g, st, remote, w, ops) == Run(g, s.st, remote, w, ops[1..]);
        RunWritesPrefix(g, s.st, remote, w, ops[1..]);
        var r := Run(g, s.st, remote, w, ops[1..]);
        PrefixAfterStep(Writes(st.log), Writes(r.st.log), c, rest);
      } else {
        assert Run(g, st, remote, w, ops) == s;
        PrefixAtThrow(Writes(st.log), Writes(s.st.log), c, rest);
      }
    }
  }

  /** A completed step followed by a run that stays within the rest of the calls. */
  lemma PrefixAfterStep<T>(x: seq<T>, z: seq<T>, c: T, rest: seq<T>)
    requires x + [c] <= z <= (x + [c]) + rest
    ensures x <= z <= x + ([c] + rest)
  {
    PrefixOfAppend(x, [c]);
    PrefixTrans(x, x + [c], z);
    assert (x + [c]) + rest == x + ([c] + rest);
  }

  /** A step that threw, with or without its write sent, ends within the plan's calls. */
  lemma PrefixAtThrow<T>(x: seq<T>, y: seq<T>, c: T, rest: seq<T>)
    requires y == x || y == x + [c]
    ensures x <= y <= x + ([c] + rest)
  {
    PrefixOfAppend(x, [c]);
    PrefixOfAppend(x, [c] + rest);
    PrefixOfAppend(x + [c], rest);
    assert (x + [c]) + rest == x + ([c] + rest);
  }

  lemma {:induction false} RunSettings(g: Gateway, st: State, remote: Remote, w: World, ops: seq<Op>)
    ensures Run(g, st, remote, w, ops).st.settings == st.settings
    decreases |ops|
  {
    if |ops| > 0 {
      var s := Step(g, st, remote, w, ops[0]);
      StepEffect(g, st, remote, w, ops[0]);
      if s.Done? {
        assert Run(g, st, remote, w, ops) == Run(g, s.st, remote, w, ops[1..]);
        RunSettings(g, s.st, remote, w, ops[1..]);
      }
    }
  }

  lemma {:induction false} RunRecords(g: Gateway, st: State, remote: Remote, w: World, ops: seq<Op>)
    ensures var r := Run(g, st, remote, w, ops);
            r.Done? ==> r.st.records == Replay(g, w, st.records, ops)
    decreases |ops|
  {
    if |ops| > 0 {
      var s := Step(g, st, remote, w, ops[0]);
      StepEffect(g, st, remote, w, ops[0]);
      if s.Done? {
        assert Run(g, st, remote, w, ops) == Run(g, s.st, remote, w, ops[1..]);
        RunRecords(g, s.st, remote, w, ops[1..]);
      }
    }
  }

  /**
    Running a plan sends its writes in plan order and nothing else; a throw
    cuts the sequence short but never reorders it. A completed run leaves
    the remote records as the reference replay of the plan does, and no run
    changes the pushed settings.
   */
  lemma RunEffect(g: Gateway, st: State, remote: Remote, w: World, ops: seq<Op>)
    ensures var r := Run(g, st, remote, w, ops);
            && r.st.settings == st.settings
            && Writes(st.log) <= Writes(r.st.log) <= Writes(st.log) + Calls(g, w, ops)
            && (r.Done? ==> Writes(r.st.log) == Writes(st.log) + Calls(g, w, ops))
            && (r.Done? ==> r.st.records == Replay(g, w, st.records, ops))
  {
    RunWrites(g, st, remote, w, ops);
    RunWritesPrefix(g, st, remote, w, ops);
    RunSettings(g, st, remote, w, ops);
    RunRecords(g, st, remote, w, ops);
  }

  lemma PrefixOfAppend<T>(a: seq<T>, b: seq<T>)
    ensures a <= a + b
  {
    assert (a + b)[..|a|] == a;
  }

  lemma PrefixTrans<T>(a: seq<T>, b: seq<T>, c: seq<T>)
    requires a <= b && b <= c
    ensures a <= c
  {
    assert c[..|a|] == c[..|b|][..|a|];
  }

  /** Replaying saves only ever adds records: every saved post ends up under its objectID. */
  lemma {:induction false} ReplaySavesKeys(g: Gateway, w: World, records: map<(string, string), Record>, posts: seq<Post>)
    requires KeepsObjectId(g)
    ensures var r := Replay(g, w, records, SaveAll(posts));
            && records.Keys <= r.Keys
            && forall p :: p in posts ==> (g.indexName, ObjectId(g.settings.postType, p.id)) in r
    decreases |posts|
  {
    if |posts| > 0 {
      var p := posts[0];
      BuildObjectId(g, w, p);
      var data := Build(g.settings, g.extra, w, p);
      var next := Upsert(g.indexName, records, data);
      assert SaveAll(posts)[1..] == SaveAll(posts[1..]);
      assert Replay(g, w, records, SaveAll(posts)) == Replay(g, w, next, SaveAll(posts[1..]));
      ReplaySavesKeys(g, w, next, posts[1..]);
      assert forall q :: q in posts ==> q == p || q in posts[1..];
    }
  }

  /** A one-step plan is just that step. */
  lemma RunSingle(g: Gateway, st: State, remote: Remote, w: World, op: Op)
    ensures Run(g, st, remote, w, [op]) == Step(g, st, remote, w, op)
  {
    assert [op][1..] == [];
  }

  /** `save_post`. */
  function SavePost(sync: Synchronizer, st: State, remote: Remote, w: World, p: Post): Outcome<()> {
    Run(GatewayOf(sync), st, remote, w, SavePostPlan(sync, w, p))
  }

  /**
    After `save_post` completes, a published post of this type has its built
    record in the index, any other post of this type has none, and a post of
    another type (or an autosave) changed nothing at all.
   */
  lemma SavePostEffect(sync: Synchronizer, st: State, remote: Remote, w: World, p: Post)
    requires KeepsObjectId(GatewayOf(sync))
    ensures var r := SavePost(sync, st, remote, w, p);
            var key := (sync.indexNameBase, ObjectId(sync.settings.postType, p.id));
            && (p.isAutosave || p.postType != sync.postType ==> r == Done(st, ()))
            && (r.Done? && !p.isAutosave && p.postType == sync.postType && p.status != Published ==> key !in r.st.records)
            && (r.Done? && !p.isAutosave && p.postType == sync.postType && p.status == Published ==>
                  key in r.st.records && r.st.records[key] == Build(sync.settings, sync.extra, w, p))
  {
    DecideSpec(sync, w, p);
    var g := GatewayOf(sync);
    match Decide(sync, w, p)
    case Ignore =>
    case Remove =>
      RunSingle(g, st, remote, w, DeleteOp(p.id));
    case Index =>
      RunSingle(g, st, remote, w, SaveOp(p));
      BuildObjectId(g, w, p);
  }

  /** `delete_post`. */
  function DeletePost(sync: Synchronizer, st: State, remote: Remote, w: World, id: nat): Outcome<()> {
    Run(GatewayOf(sync), st, remote, w, [DeleteOp(id)])
  }

  lemma DeletePostEffect(sync: Synchronizer, st: State, remote: Remote, w: World, id: nat)
    ensures var r := DeletePost(sync, st, remote, w, id);
            && (r.Done? ==> (sync.indexNameBase, ObjectId(sync.settings.postType, id)) !in r.st.records)
            && (r.Done? ==> ObjectKey(sync.settings.postType, id) !in r.st.cache)
  {
    RunSingle(GatewayOf(sync), st, remote, w, DeleteOp(id));
  }

  /** `handle_bulk_update`: runs the plan and hands back the redirect target unchanged. */
  function HandleBulkUpdate(sync: Synchronizer, st: State, remote: Remote, w: World,
                            redirect: string, action: string, ids: seq<nat>): (r: Outcome<string>)
    ensures r.Done? ==> r.value == redirect
    ensures r.Done? <==> Run(GatewayOf(sync), st, remote, w, BulkPlan(sync, w, action, ids)).Done?
    ensures r.st == Run(GatewayOf(sync), st, remote, w, BulkPlan(sync, w, action, ids)).st
  {
    match Run(GatewayOf(sync), st, remote, w, BulkPlan(sync, w, action, ids))
    case Thrown(st1) => Thrown(st1)
    case Done(st1, _) => Done(st1, redirect)
  }

  /** `update_taxonomy_posts`. */
  function UpdateTaxonomyPosts(sync: Synchronizer, st: State, remote: Remote, w: World, termId: nat): Outcome<()> {
    Run(GatewayOf(sync), st, remote, w, CascadePlan(sync, w, termId))
  }

  lemma UpdateTaxonomyPostsEffect(sync: Synchronizer, st: State, remote: Remote, w: World, termId: nat)
    requires KeepsObjectId(GatewayOf(sync))
    ensures var r := UpdateTaxonomyPosts(sync, st, remote, w, termId);
            && (GetTerm(w, termId).None? ==> r == Done(st, ()))
            && (r.Done? && GetTerm(w, termId).Some? ==>
                  forall p :: p in w.posts && p.postType == sync.postType && p.status == Published
                              && InTerm(w, p, GetTerm(w, termId).value.taxonomy, termId) ==>
                    (sync.indexNameBase, ObjectId(sync.settings.postType, p.id)) in r.st.records)
  {
    var g := GatewayOf(sync);
    if GetTerm(w, termId).Some? {
      var posts := TermPosts(sync, w, GetTerm(w, termId).value.taxonomy, termId);
      RunEffect(g, st, remote, w, SaveAll(posts));
      ReplaySavesKeys(g, w, st.records, posts);
    }
  }

  /** `cli_reindex`. */
  function CliReindex(sync: Synchronizer, st: State, remote: Remote, w: World): Outcome<()> {
    Run(GatewayOf(sync), st, remote, w, ReindexPlan(sync, w))
  }

  /** A completed reindex leaves every published post of this type in the index, and earlier records in place. */
  lemma CliReindexEffect(sync: Synchronizer, st: State, remote: Remote, w: World)
    requires KeepsObjectId(GatewayOf(sync))
    ensures var r := CliReindex(sync, st, remote, w);
            && (r.Done? ==> st.records.Keys <= r.st.records.Keys)
            && (r.Done? ==> forall p :: p in w.posts && p.postType == sync.postType && p.status == Published ==>
                  (sync.indexNameBase, ObjectId(sync.settings.postType, p.id)) in r.st.records)
  {
    var g := GatewayOf(sync);
    ReindexPlanSpec(sync, w);
    RunEffect(g, st, remote, w, ReindexPlan(sync, w));
    ReplaySavesKeys(g, w, st.records, PublishedPosts(sync, w));
  }

  datatype StatusItem = StatusItem(id: nat, recordExist: bool)

  /** What the status endpoint sends: nothing for an empty request, else the items (or an error). */
  datatype StatusReply = NoReply | Success(postType: string, items: seq<StatusItem>) | Failure

  /** The status answer for `id` on `st`: a truthy flag is cached, or the record is there and the lookup does not fail. */
  predicate Present(g: Gateway, st: State, remote: Remote, id: nat) {
    var oid := ObjectId(g.settings.postType, id);
    || Truthy(Cached(st, ObjectKey(g.settings.postType, id)))
    || ((g.indexName, oid) in st.records && !remote.fails(GetObject(g.indexName, oid, "objectID")))
  }

  /**
    One id of the status check: a fresh gateway, then `record_exist(id) != false`.
    The answer is yes exactly when the id is present; no record is written.
   */
  function CheckOne(g: Gateway, st: State, remote: Remote, id: nat): (r: (State, bool))
    ensures r.1 <==> Present(g, st, remote, id)
    ensures r.0.records == st.records && r.0.settings == st.settings
    ensures Writes(r.0.log) == Writes(st.log)
  {
    var st1 := Open(g, st);
    KeyFamiliesDisjoint(g.indexName, g.settings.postType, id, g.indexName, "");
    assert Cached(st1, ObjectKey(g.settings.postType, id)) == Cached(st, ObjectKey(g.settings.postType, id));
    var e := RecordExist(g, st1, remote, id);
    OpenKeepsWrites(g, st);
    RecordExistKeepsWrites(g, st1, remote, id);
    (e.st, Truthy(e.value))
  }

  /**
    Checking one id leaves every id's answer as it was: the constructor only
    caches the handle, and the lookup only caches `true` for a record that
    is there and can be fetched, which the id already answered yes to.
   */
  lemma CheckOneKeepsPresent(g: Gateway, st: State, remote: Remote, id: nat, j: nat)
    ensures Present(g, CheckOne(g, st, remote, id).0, remote, j) <==> Present(g, st, remote, j)
  {
    var pt := g.settings.postType;
    var st1 := Open(g, st);
    KeyFamiliesDisjoint(g.indexName, pt, j, g.indexName, "");
    assert Cached(st1, ObjectKey(pt, j)) == Cached(st, ObjectKey(pt, j));
    var e := RecordExist(g, st1, remote, id);
    assert CheckOne(g, st, remote, id).0 == e.st;
    if ObjectKey(pt, j) != ObjectKey(pt, id) && !Truthy(Cached(st1, ObjectKey(pt, id))) {
      assert Cached(e.st, ObjectKey(pt, j)) == Cached(st1, ObjectKey(pt, j));
    }
    if ObjectKey(pt, j) == ObjectKey(pt, id) {
      ObjectKeyInjective(pt, j, pt, id);
    }
  }

  lemma CheckOneKeepsAllPresent(g: Gateway, st: State, remote: Remote, id: nat)
    ensures forall j :: Present(g, CheckOne(g, st, remote, id).0, remote, j) <==> Present(g, st, remote, j)
  {
    forall j ensures Present(g, CheckOne(g, st, remote, id).0, remote, j) <==> Present(g, st, remote, j) {
      CheckOneKeepsPresent(g, st, remote, id, j);
    }
  }

  /** The items of a status request: every id, duplicates included, answers from the state the request found. */
  function CheckAll(g: Gateway, st: State, remote: Remote, ids: seq<nat>): (r: (State, seq<StatusItem>))
    decreases |ids|
    ensures |r.1| == |ids|
    ensures forall i :: 0 <= i < |ids| ==> r.1[i].id == ids[i]
    ensures forall i :: 0 <= i < |ids| ==> (r.1[i].recordExist <==> Present(g, st, remote, ids[i]))
    ensures r.0.records == st.records && r.0.settings == st.settings
    ensures Writes(r.0.log) == Writes(st.log)
  {
    if |ids| == 0 then (st, [])
    else
      var first := CheckOne(g, st, remote, ids[0]);
      var rest := CheckAll(g, first.0, remote, ids[1..]);
      CheckOneKeepsAllPresent(g, st, remote, ids[0]);
      ItemsCons(g, st, first.0, remote, ids, first.1, rest.1);
      (rest.0, [StatusItem(ids[0], first.1)] + rest.1)
  }

  /**
    Prepending the first id's item to items aligned with the other ids keeps
    them aligned, and keeps every answer exact when the first check changed
    no answer.
   */
  lemma ItemsCons(g: Gateway, st: State, st1: State, remote: Remote, ids: seq<nat>, present: bool, rest: seq<StatusItem>)
    requires |ids| > 0 && |rest| == |ids| - 1
    requires present <==> Present(g, st, remote, ids[0])
    requires forall j :: Present(g, st1, remote, j) <==> Present(g, st, remote, j)
    requires forall i :: 0 <= i < |rest| ==> rest[i].id == ids[1..][i]
    requires forall i :: 0 <= i < |rest| ==> (rest[i].recordExist <==> Present(g, st1, remote, ids[1..][i]))
    ensures var items := [StatusItem(ids[0], present)] + rest;
            && |items| == |ids|
            && (forall i :: 0 <= i < |ids| ==> items[i].id == ids[i])
            && (forall i :: 0 <= i < |ids| ==> (items[i].recordExist <==> Present(g, st, remote, ids[i])))
  {
    var items := [StatusItem(ids[0], present)] + rest;
    forall i | 0 <= i < |ids|
      ensures items[i].id == ids[i] && (items[i].recordExist <==> Present(g, st, remote, ids[i]))
    {
      if i > 0 {
        assert items[i] == rest[i - 1];
        assert ids[1..][i - 1] == ids[i];
      }
    }
  }

  /** `manage_admin_check_algolia_status`: one item per requested id, in request order; read-only remotely. */
  function StatusCheck(sync: Synchronizer, st: State, remote: Remote, ids: seq<nat>): (r: (State, StatusReply))
    ensures r.1.NoReply? <==> |ids| == 0
    ensures !r.1.Failure?
    ensures r.1.Success? ==> r.1.postType == sync.postType && |r.1.items| == |ids|
                             && forall i :: 0 <= i < |ids| ==> r.1.items[i].id == ids[i]
    ensures r.1.Success? ==>
              forall i :: 0 <= i < |ids| ==> (r.1.items[i].recordExist <==> Present(GatewayOf(sync), st, remote, ids[i]))
    ensures r.0.records == st.records && r.0.settings == st.settings
    ensures Writes(r.0.log) == Writes(st.log)
  {
    if |ids| == 0 then (st, NoReply)
    else
      var (st1, items) := CheckAll(GatewayOf(sync), st, remote, ids);
      if |items| > 0 then (st1, Success(sync.postType, items)) else (st1, Failure)
  }

  /** The first item answers from the state the request found. */
  lemma StatusFirstItem(sync: Synchronizer, st: State, remote: Remote, ids: seq<nat>)
    requires |ids| > 0
    ensures var r := StatusCheck(sync, st, remote, ids);
            var oid := ObjectId(sync.settings.postType, ids[0]);
            r.1.Success? &&
            (r.1.items[0].recordExist <==>
               Truthy(Cached(st, ObjectKey(sync.settings.postType, ids[0])))
               || ((sync.indexNameBase, oid) in st.records
                   && !remote.fails(GetObject(sync.indexNameBase, oid, "objectID"))))
  {
  }

  function QueryFilters(postType: string, locale: string): string {
    "post_type:" + postType + " AND (locale:" + locale + ")"
  }

  function SearchCall(sync: Synchronizer, locale: string): Call {
    Search(sync.indexNameBase, "", QueryFilters(sync.postType, locale), SearchHits)
  }

  /**
    `query($locale)`: a truthy cached result is returned with no search;
    otherwise one search for this type and locale, whose answer is cached
    for ten minutes and returned.
   */
  function Query(sync: Synchronizer, st: State, remote: Remote, locale: string): (r: Outcome<Value>)
    ensures var g := GatewayOf(sync);
            var started := Open(g, st);
            && r.st.records == st.records && r.st.settings == st.settings
            && (Truthy(CachedQuery(g, st, locale)) ==> r == Done(started, CachedQuery(g, st, locale)))
            && (!Truthy(CachedQuery(g, st, locale)) ==>
                  && r.st.log == started.log + [SearchCall(sync, locale)]
                  && (r.Done? <==> !remote.fails(SearchCall(sync, locale)))
                  && (r.Done? ==> r.value == remote.answer(SearchCall(sync, locale))
                                  && CachedQuery(g, r.st, locale) == r.value))
  {
    var g := GatewayOf(sync);
    var st1 := Open(g, st);
    KeyFamiliesDisjoint(g.indexName, "", 0, g.indexName, locale);
    assert CachedQuery(g, st1, locale) == CachedQuery(g, st, locale);
    var cached := CachedQuery(g, st1, locale);
    if Truthy(cached) then Done(st1, cached)
    else
      OpenIdempotent(g, st);
      var st2 := Open(g, st1);
      var c := SearchCall(sync, locale);
      var st3 := Logged(st2, c);
      if remote.fails(c) then Thrown(st3)
      else
        var data := remote.answer(c);
        var st4 := Open(g, st3);
        assert Truthy(Cached(st3, IndexKey(g.indexName)));
        Done(CacheQuery(g, st4, data, locale), data)
  }

  /** A second query for the same locale, after a truthy answer, is served from the cache with no call at all. */
  lemma QueryMemoized(sync: Synchronizer, st: State, remote: Remote, locale: string)
    requires Query(sync, st, remote, locale).Done?
    requires Truthy(Query(sync, st, remote, locale).value)
    ensures var first := Query(sync, st, remote, locale);
            Query(sync, first.st, remote, locale) == Done(first.st, first.value)
  {
    var g := GatewayOf(sync);
    var first := Query(sync, st, remote, locale);
    assert Truthy(CachedQuery(g, first.st, locale));
    assert Truthy(Cached(first.st, IndexKey(g.indexName))) by {
      KeyFamiliesDisjoint(g.indexName, "", 0, g.indexName, locale);
      OpenIdempotent(g, st);
    }
  }

  /** A save drops the cached query of the record's locale, so the next query for it searches again. */
  lemma SaveRefreshesQuery(sync: Synchronizer, st: State, remote: Remote, w: World, p: Post)
    requires RecordLocale(Build(sync.settings, sync.extra, w, p)).Some?
    ensures var saved := Save(GatewayOf(sync), st, remote, w, p).st;
            var locale := RecordLocale(Build(sync.settings, sync.extra, w, p)).value;
            Query(sync, saved, remote, locale).st.log == Open(GatewayOf(sync), saved).log + [SearchCall(sync, locale)]
  {
  }

  /**
    `cli_set_settings($locale)`: pushes the type's settings to the base index
    whatever the locale, after the constructor's own `init_index`.
   */
  function CliSetSettings(sync: Synchronizer, st: State, remote: Remote, locale: string): (r: Outcome<()>)
    ensures var g := GatewayOf(sync);
            var call := SetSettings(sync.indexNameBase, sync.settings.config);
            && r.st.log == Open(g, st).log + [call]
            && (r.Done? <==> !remote.fails(call))
            && (r.Done? ==> r.st.settings == st.settings[sync.indexNameBase := sync.settings.config])
            && (r.Thrown? ==> r.st.settings == st.settings)
            && r.st.records == st.records
  {
    var g := GatewayOf(sync);
    InitIndexOp(g, Open(g, st), remote, true)
  }
}

=== FILE: php_value.dfy ===
/**
  The PHP values that flow through the plugin: what WordPress and ACF hand
  back, what goes into an index record, what the transient cache stores.
  Only the parts of PHP's semantics the plugin relies on are modelled:
  truthiness (`if ($x)`, `?:`), property reads (`$obj->$name`) and string
  interpolation (`"{$x}"`).
 */
module Php {
  import opened Decimal

  datatype Option<+T> = None | Some(value: T)

  /** Concatenation regroups freely; proofs about joined strings and plans lean on it. */
  lemma ConcatAssoc<T>(a: seq<T>, b: seq<T>, c: seq<T>)
    ensures a + (b + c) == (a + b) + c
  {
  }

  /** A PHP value. Lists are arrays with keys 0..n-1; dictionaries are string-keyed arrays. */
  datatype Value =
    | Null
    | Bool(b: bool)
    | Int(i: int)
    | Str(s: string)
    | List(items: seq<Value>)
    | Dict(entries: map<string, Value>)
    | Obj(cls: string, props: map<string, Value>)

  /** PHP's conversion to boolean: the empty string, "0", 0, false, null and empty arrays are falsy; objects are always truthy. */
  predicate Truthy(v: Value) {
    match v
    case Null => false
    case Bool(b) => b
    case Int(i) => i != 0
    case Str(s) => s != "" && s != "0"
    case List(items) => |items| > 0
    case Dict(entries) => |entries| > 0
    case Obj(_, _) => true
  }

  /**
    `$v->$name`: a declared property of an object; anything else (a missing
    property, or a read on a non-object) yields null with a warning.
   */
  function Prop(v: Value, name: string): (r: Value)
    ensures v.Obj? && name in v.props ==> r == v.props[name]
    ensures v.Obj? && name !in v.props ==> r == Null
    ensures !v.Obj? ==> r == Null
  {
    if v.Obj? && name in v.props then v.props[name] else Null
  }

  /**
    `"{$v}"`: the text PHP interpolates for a value, or None where PHP raises
    an error (an object without `__toString`).
   */
  function Interpolate(v: Value): (r: Option<string>)
    ensures v.Str? ==> r == Some(v.s)
    ensures r.None? <==> v.Obj?
    ensures v.Null? || v == Bool(false) ==> r == Some("")
  {
    match v
    case Null => Some("")
    case Bool(b) => Some(if b then "1" else "")
    case Int(i) => Some(if i < 0 then "-" + FromNat(-i) else FromNat(i))
    case Str(s) => Some(s)
    case List(_) => Some("Array")
    case Dict(_) => Some("Array")
    case Obj(_, _) => None
  }

  /** `$map[$key]` on an array that may lack the key: a warning and null. */
  function Lookup(m: map<string, Value>, key: string): (r: Value)
    ensures key in m ==> r == m[key]
    ensures key !in m ==> r == Null
  {
    if key in m then m[key] else Null
  }
}

=== FILE: plugin.dfy ===
/**
  The plugin bootstrap: on `plugins_loaded`, nothing happens without the
  Algolia credentials; otherwise every supported post type gets a
  synchronizer, all writing to the one `{prefix}content` index.
 */
module Plugin {
  import opened Php
  import opened Lifecycle
  import Cocktail

  const DefaultPrefix: string := "production_"
  const ApplicationIdConstant: string := "ALGOLIA_APPLICATION_ID"
  const AdminKeyConstant: string := "ALGOLIA_ADMIN_API_KEY"
  const PrefixConstant: string := "ALGOLIA_PREFIX"

  /** The keys `Main::register` fills, in registration order. */
  const PostTypes: seq<string> := ["post", "page", "cocktail", "eat", "video"]

  /** The `Main` instance: its synchronizers by post type. */
  datatype Main = Main(registered: map<string, Synchronizer>)

  /** A post type class's constructor, `new X($post_type, $index_name, $client)`. */
  type Constructor = (string, string) -> Synchronizer

  /** The single index every post type writes to. */
  function ContentIndex(prefix: string): string {
    prefix + "content"
  }

  /**
    `Main::register`: the cocktail type is built by its own class; the
    other four classes are given as `other`.
   */
  function Register(prefix: string, other: Constructor): (r: Main)
    ensures r.registered.Keys == set t | t in PostTypes
    ensures r.registered["cocktail"] == Cocktail.Make("cocktail", ContentIndex(prefix))
    ensures forall t :: t in r.registered && t != "cocktail" ==> r.registered[t] == other(t, ContentIndex(prefix))
  {
    var name := ContentIndex(prefix);
    Main(map[
      "post" := other("post", name),
      "page" := other("page", name),
      "cocktail" := Cocktail.Make("cocktail", name),
      "eat" := other("eat", name),
      "video" := other("video", name)])
  }

  /** Each synchronizer serves the post type it is registered under and targets the shared index. */
  lemma RegisterConsistent(prefix: string, other: Constructor)
    requires forall t, n :: other(t, n).postType == t && other(t, n).indexNameBase == n
    ensures var m := Register(prefix, other);
            forall t :: t in m.registered ==>
              m.registered[t].postType == t && m.registered[t].indexNameBase == ContentIndex(prefix)
  {
  }

  /** The prefix in effect: the defined constant, or the default when it is not defined. */
  function Prefix(defines: map<string, string>): string {
    if PrefixConstant in defines then defines[PrefixConstant] else DefaultPrefix
  }

  /** The `plugins_loaded` callback: no instance without both credentials. */
  function Boot(defines: map<string, string>, other: Constructor): (r: Option<Main>)
    ensures r.Some? <==> ApplicationIdConstant in defines && AdminKeyConstant in defines
    ensures r.Some? ==> r.value == Register(Prefix(defines), other)
  {
    if ApplicationIdConstant !in defines || AdminKeyConstant !in defines then None
    else Some(Register(Prefix(defines), other))
  }

  /**
    Once booted, the cocktail synchronizer writes to `production_content`
    unless a prefix is defined, and to `{prefix}content` when one is.
   */
  lemma BootIndexName(defines: map<string, string>, other: Constructor)
    requires Boot(defines, other).Some?
    ensures PrefixConstant !in defines ==>
              Boot(defines, other).value.registered["cocktail"].indexNameBase == "production_content"
    ensures PrefixConstant in defines ==>
              Boot(defines, other).value.registered["cocktail"].indexNameBase == defines[PrefixConstant] + "content"
  {
    var prefix := Prefix(defines);
    var m := Register(prefix, other);
    assert Boot(defines, other).value == m;
    assert m.registered["cocktail"] == Cocktail.Make("cocktail", ContentIndex(prefix));
    assert m.registered["cocktail"].indexNameBase == ContentIndex(prefix);
  }

  /** `Main::search`: a stub that always answers null. */
  function Search(): Value {
    Null
  }
}

=== FILE: queries.dfy ===
/**
  `Queries`: the `wp_algolia_query` filter, which routes a query to the
  synchronizer registered for a post type.
 */
module Queries {
  import opened Php
  import opened IndexGateway
  import opened Lifecycle
  import opened Plugin
  import Cocktail

  const DefaultLocale: string := "en"

  /**
    `get_registered_post_type`: a lookup by key; anything other than a
    registered string key (a missing key, an illegal offset) is null.
   */
  function RegisteredPostType(main: Main, postType: Value): (r: Option<Synchronizer>)
    ensures r.Some? <==> postType.Str? && postType.s in main.registered
    ensures r.Some? ==> r.value == main.registered[postType.s]
  {
    if postType.Str? && postType.s in main.registered then Some(main.registered[postType.s]) else None
  }

  /**
    `query($post_type, $locale)`: null for a falsy or unregistered post type,
    with no call made; otherwise that type's own query, for the given locale
    or `en` by default.
   */
  function Query(main: Main, st: State, remote: Remote, postType: Value, locale: Option<string>): (r: Outcome<Value>)
    ensures !Truthy(postType) ==> r == Done(st, Null)
    ensures RegisteredPostType(main, postType).None? ==> r == Done(st, Null)
    ensures Truthy(postType) && RegisteredPostType(main, postType).Some? ==>
              r == Lifecycle.Query(RegisteredPostType(main, postType).value, st, remote,
                                   if locale.Some? then locale.value else DefaultLocale)
  {
    if !Truthy(postType) then Done(st, Null)
    else
      match RegisteredPostType(main, postType)
      case None => Done(st, Null)
      case Some(sync) => Lifecycle.Query(sync, st, remote, if locale.Some? then locale.value else DefaultLocale)
  }

  /** Once booted, `cocktail` resolves to the cocktail synchronizer on the content index. */
  lemma CocktailRegistered(defines: map<string, string>, other: Constructor)
    requires Boot(defines, other).Some?
    ensures RegisteredPostType(Boot(defines, other).value, Str("cocktail"))
            == Some(Cocktail.Make("cocktail", ContentIndex(Prefix(defines))))
  {
  }

  /**
    A type registered under its own name is queried, without a locale, as
    an English search on its index with the type and locale as filter.
   */
  lemma RouteWithoutLocale(main: Main, st: State, remote: Remote, sync: Synchronizer)
    requires Truthy(Str(sync.postType))
    requires RegisteredPostType(main, Str(sync.postType)) == Some(sync)
    ensures var r := Query(main, st, remote, Str(sync.postType), None);
            && r == Lifecycle.Query(sync, st, remote, "en")
            && (!Truthy(CachedQuery(GatewayOf(sync), st, "en")) ==>
                  r.st.log == Open(GatewayOf(sync), st).log
                              + [Search(sync.indexNameBase, "", "post_type:" + sync.postType + " AND (locale:en)", 9999)])
  {
    assert SearchCall(sync, "en") == Search(sync.indexNameBase, "", "post_type:" + sync.postType + " AND (locale:en)", 9999);
  }

  /** Any registry holding the cocktail synchronizer under `cocktail` routes its queries there. */
  lemma CocktailRouteIn(main: Main, index: string, st: State, remote: Remote)
    requires "cocktail" in main.registered && main.registered["cocktail"] == Cocktail.Make("cocktail", index)
    ensures var sync := Cocktail.Make("cocktail", index);
            var r := Query(main, st, remote, Str("cocktail"), None);
            && r == Lifecycle.Query(sync, st, remote, "en")
            && (!Truthy(CachedQuery(GatewayOf(sync), st, "en")) ==>
                  r.st.log == Open(GatewayOf(sync), st).log
                              + [Search(index, "", "post_type:cocktail AND (locale:en)", 9999)])
  {
    var sync := Cocktail.Make("cocktail", index);
    assert sync.postType == "cocktail" && sync.indexNameBase == index;
    assert "post_type:" + sync.postType + " AND (locale:en)" == "post_type:cocktail AND (locale:en)";
    RouteWithoutLocale(main, st, remote, sync);
  }

  /**
    Once booted, a cocktail query without a locale searches the shared
    content index for English cocktails (unless a cached answer is served).
   */
  lemma CocktailQueryRoute(defines: map<string, string>, other: Constructor, st: State, remote: Remote)
    requires Boot(defines, other).Some?
    ensures var main := Boot(defines, other).value;
            var sync := Cocktail.Make("cocktail", ContentIndex(Prefix(defines)));
            var r := Query(main, st, remote, Str("cocktail"), None);
            && r == Lifecycle.Query(sync, st, remote, "en")
            && (!Truthy(CachedQuery(GatewayOf(sync), st, "en")) ==>
                  r.st.log == Open(GatewayOf(sync), st).log
                              + [Search(ContentIndex(Prefix(defines)), "", "post_type:cocktail AND (locale:en)", 9999)])
  {
    CocktailRegistered(defines, other);
    CocktailRouteIn(Boot(defines, other).value, ContentIndex(Prefix(defines)), st, remote);
  }
}

=== FILE: record_builder.dfy ===
/**
  The data half of `AlgoliaIndex::save`: the flat record sent to the index
  for one post. Base fields first, then the locale (with Polylang), then the
  post type's `extraFields` hook, then ACF fields, then taxonomy terms; each
  later stage overwrites same-named keys of the earlier ones.
 */
module RecordBuilder {
  import opened Php
  import opened Decimal
  import opened TextNormalizer
  import opened Wordpress

  type Record = map<string, Value>

  /** An `acf_fields` entry: a field name, or `key => [sub-field labels]` for a group. */
  datatype AcfField = Plain(name: string) | Group(key: string, labels: seq<string>)

  /**
    A `taxonomies` entry: a taxonomy name, or `['name' => ..., 'acf_fields' => [...]]`.
    A missing or non-array `acf_fields` is the empty list.
   */
  datatype TaxonomyField = Simple(name: string) | Detailed(name: string, acfFields: seq<string>)

  /** The `$index_settings` array a post type hands to its synchronizer. */
  datatype IndexSettings = IndexSettings(
    acfFields: seq<AcfField>,
    taxonomies: seq<TaxonomyField>,
    postType: string,
    hiddenFlagField: string,
    config: Value,             // the 'config' entry, sent by setSettings
    positional: seq<Value>)    // entries under integer keys 0, 1, ...

  /** A post type's `extraFields($data, $post)` hook; the identity for a type without one. */
  type Extension = (Record, Post) -> Record

  function NoExtension(data: Record, p: Post): Record {
    data
  }

  /** `index_objectID`: `implode('_', [post_type, id])`. */
  function ObjectId(postType: string, id: nat): string {
    postType + "_" + FromNat(id)
  }

  /** Distinct (post type, id) pairs never share an objectID, even when the type contains `_`. */
  lemma ObjectIdInjective(a: string, m: nat, b: string, n: nat)
    ensures ObjectId(a, m) == ObjectId(b, n) <==> a == b && m == n
  {
    JoinInjective('_', a, m, b, n);
  }

  /** `excerpt`: the cleaned explicit excerpt when it is truthy, else the body cut to 125. */
  function Excerpt(p: Post): (r: Value)
    ensures r.Str?
    ensures Truthy(Str(p.excerpt)) ==> r.s == Clean(p.excerpt)
    ensures !Truthy(Str(p.excerpt)) ==> |r.s| <= ExcerptWidth
    ensures !Truthy(Str(p.excerpt)) && |Clean(p.content)| <= ExcerptWidth ==> r.s == Clean(p.content)
    ensures !Truthy(Str(p.excerpt)) && |Clean(p.content)| > ExcerptWidth ==>
              r.s == Clean(p.content)[..ExcerptWidth - |Marker|] + Marker
  {
    if Truthy(Str(p.excerpt)) then PrepareText(Str(p.excerpt), 0)
    else PrepareText(Str(p.content), ExcerptWidth)
  }

  const BaseKeys: set<string> := {"objectID", "post_title", "post_thumbnail", "post_thumbnail_sizes",
                                  "date", "timestamp", "excerpt", "content", "url", "post_type"}

  /**
    The base fields: the canonical objectID, the raw title, the excerpt, the
    whole body cleaned but never cut, and the host values as given; the
    main thumbnail is the `largest` size.
   */
  function BaseRecord(s: IndexSettings, p: Post): (r: Record)
    ensures r.Keys == BaseKeys
    ensures r["objectID"] == Str(ObjectId(s.postType, p.id))
    ensures r["post_title"] == Str(p.title)
    ensures r["excerpt"] == Excerpt(p)
    ensures r["content"] == Str(Clean(p.content))
    ensures r["post_thumbnail_sizes"].Dict? && r["post_thumbnail_sizes"].entries.Keys == {"small", "large", "largest", "full"}
    ensures forall z :: z in r["post_thumbnail_sizes"].entries ==> r["post_thumbnail_sizes"].entries[z] == Thumbnail(p, z)
    ensures r["post_thumbnail"] == r["post_thumbnail_sizes"].entries["largest"] == Thumbnail(p, "largest")
    ensures r["date"] == p.media.dateIso && r["timestamp"] == p.media.dateUnix
    ensures r["url"] == p.media.permalink && r["post_type"] == p.media.typeName
  {
    map[
      "objectID" := Str(ObjectId(s.postType, p.id)),
      "post_title" := Str(p.title),
      "post_thumbnail" := Thumbnail(p, "largest"),
      "post_thumbnail_sizes" := Dict(map[
        "small" := Thumbnail(p, "small"),
        "large" := Thumbnail(p, "large"),
        "largest" := Thumbnail(p, "largest"),
        "full" := Thumbnail(p, "full")]),
      "date" := p.media.dateIso,
      "timestamp" := p.media.dateUnix,
      "excerpt" := Excerpt(p),
      "content" := PrepareText(Str(p.content), 0),
      "url" := p.media.permalink,
      "post_type" := p.media.typeName
    ]
  }

  /** With Polylang, `locale` is the post's language or, when that is falsy, the default slug. */
  function WithLocale(data: Record, w: World, p: Post): (r: Record)
    ensures w.polylang.None? ==> r == data
    ensures w.polylang.Some? ==> r.Keys == data.Keys + {"locale"}
    ensures w.polylang.Some? ==>
              var lang := PostLanguage(w.polylang.value, p.id);
              r["locale"] == if Truthy(lang) then lang else w.polylang.value.defaultSlug
    ensures forall k :: k in data && k != "locale" ==> k in r && r[k] == data[k]
  {
    match w.polylang
    case None => data
    case Some(pl) =>
      var lang := PostLanguage(pl, p.id);
      data["locale" := if Truthy(lang) then lang else pl.defaultSlug]
  }

  /** The `{key}_{label}` keys a group with several labels writes. */
  function SubKeys(key: string, labels: seq<string>): set<string> {
    set l | l in labels :: key + "_" + l
  }

  /** What a several-label group writes: each `{key}_{label}` gets that property, cleaned. */
  function SubWrites(key: string, labels: seq<string>, v: Value): (r: Record)
    ensures r.Keys == SubKeys(key, labels)
  {
    map k | k in SubKeys(key, labels) :: PrepareText(Prop(v, k[|key| + 1..]), 0)
  }

  /**
    Declarative form of one `acf_fields` entry: the keys it adds and their
    values. A falsy field adds nothing; a plain field goes under its name; a
    one-label group under the parent key; a several-label group under
    `{key}_{label}` only.
   */
  function AcfWrites(f: AcfField, v: Value): Record {
    if !Truthy(v) then map[]
    else match f
      case Plain(n) => map[n := PrepareText(v, 0)]
      case Group(key, labels) =>
        if |labels| == 1 then map[key := PrepareText(Prop(v, labels[0]), 0)]
        else SubWrites(key, labels, v)
  }

  /** The value `get_field` returns for an entry: by name, or by the group's key. */
  function AcfValue(w: World, f: AcfField, postId: nat): Value {
    match f
    case Plain(n) => GetField(w, n, PostOwner(postId))
    case Group(key, _) => GetField(w, key, PostOwner(postId))
  }

  /** The inner `foreach ($field as $field_label)` loop, one assignment per label. */
  function WriteLabels(data: Record, key: string, labels: seq<string>, single: bool, v: Value): (r: Record)
    ensures !single ==> r == data + SubWrites(key, labels, v)
    ensures single && |labels| == 1 ==> r == data[key := PrepareText(Prop(v, labels[0]), 0)]
    decreases |labels|
  {
    if |labels| == 0 then data
    else
      var l := labels[0];
      var target := if single then key else key + "_" + l;
      var x := PrepareText(Prop(v, l), 0);
      if single then WriteLabels(data[target := x], key, labels[1..], single, v)
      else
        SubWritesCons(key, labels, v);
        UpdateThenUnion(data, target, x, SubWrites(key, labels[1..], v));
        WriteLabels(data[target := x], key, labels[1..], single, v)
  }

  lemma SubWritesCons(key: string, labels: seq<string>, v: Value)
    requires |labels| > 0
    ensures SubWrites(key, labels, v)
            == SubWrites(key, labels[1..], v)[key + "_" + labels[0] := PrepareText(Prop(v, labels[0]), 0)]
  {
    var k0 := key + "_" + labels[0];
    assert k0[|key| + 1..] == labels[0];
    assert forall l :: l in labels <==> l == labels[0] || l in labels[1..];
    forall k | k in SubKeys(key, labels[1..])
      ensures k[|key| + 1..] in labels[1..]
    {
      var l :| l in labels[1..] && k == key + "_" + l;
      assert k[|key| + 1..] == l;
    }
  }

  /** One iteration of the `acf_fields` loop, as the source writes it. */
  function ApplyAcfField(data: Record, f: AcfField, v: Value): (r: Record)
    ensures r == data + AcfWrites(f, v)
  {
    if !Truthy(v) then data
    else match f
      case Plain(n) => data[n := PrepareText(v, 0)]
      case Group(key, labels) => WriteLabels(data, key, labels, |labels| == 1, v)
  }

  /** Everything the `acf_fields` entries write, later entries winning. */
  function AcfLayer(fields: seq<AcfField>, w: World, postId: nat): Record {
    if |fields| == 0 then map[]
    else AcfWrites(fields[0], AcfValue(w, fields[0], postId)) + AcfLayer(fields[1..], w, postId)
  }

  /** The whole `acf_fields` loop. */
  function ApplyAcfFields(data: Record, fields: seq<AcfField>, w: World, postId: nat): (r: Record)
    ensures r == data + AcfLayer(fields, w, postId)
    decreases |fields|
  {
    if |fields| == 0 then data
    else
      var next := ApplyAcfField(data, fields[0], AcfValue(w, fields[0], postId));
      var r := ApplyAcfFields(next, fields[1..], w, postId);
      assert r == data + AcfLayer(fields, w, postId) by {
        MapUnionAssoc(data, AcfWrites(fields[0], AcfValue(w, fields[0], postId)), AcfLayer(fields[1..], w, postId));
      }
      r
  }

  lemma MapUnionAssoc(a: Record, b: Record, c: Record)
    ensures (a + b) + c == a + (b + c)
  {
  }

  function TaxonomyName(t: TaxonomyField): string {
    match t
    case Simple(n) => n
    case Detailed(n, _) => n
  }

  function TermAttributes(t: TaxonomyField): seq<string> {
    match t
    case Simple(_) => []
    case Detailed(_, a) => a
  }

  /** The ACF values of a term, one per listed attribute. */
  function AttributeMap(w: World, term: Term, attrs: seq<string>): (r: Record)
    ensures r.Keys == set a | a in attrs
  {
    map a | a in attrs :: GetField(w, a, TermOwner(term.id))
  }

  /** The `foreach ($acf_fields as $acf_field)` loop filling one term's entry. */
  function WriteAttributes(entry: Record, w: World, term: Term, attrs: seq<string>): (r: Record)
    ensures r == entry + AttributeMap(w, term, attrs)
    decreases |attrs|
  {
    if |attrs| == 0 then entry
    else
      var a := attrs[0];
      var v := GetField(w, a, TermOwner(term.id));
      var rest := AttributeMap(w, term, attrs[1..]);
      AttributeMapCons(w, term, attrs);
      UpdateThenUnion(entry, a, v, rest);
      WriteAttributes(entry[a := v], w, term, attrs[1..])
  }

  lemma AttributeMapCons(w: World, term: Term, attrs: seq<string>)
    requires |attrs| > 0
    ensures AttributeMap(w, term, attrs)
            == AttributeMap(w, term, attrs[1..])[attrs[0] := GetField(w, attrs[0], TermOwner(term.id))]
  {
    assert forall a :: a in attrs <==> a == attrs[0] || a in attrs[1..];
  }

  /** Writing a key before a union that agrees on it is the same as writing it into the union. */
  lemma UpdateThenUnion(e: Record, k: string, v: Value, m: Record)
    requires k in m ==> m[k] == v
    ensures e[k := v] + m == e + m[k := v]
  {
  }

  /** One term's `{name, attr...}` object: the name first, then each attribute (which may overwrite it). */
  function TermEntry(w: World, term: Term, attrs: seq<string>): Value {
    Dict(WriteAttributes(map["name" := Str(term.name)], w, term, attrs))
  }

  /** The value under a taxonomy key: names, or index-aligned `{name, attr...}` objects. */
  function TaxonomyValue(w: World, t: TaxonomyField, terms: seq<Term>): Value {
    var attrs := TermAttributes(t);
    if |attrs| > 0 then List(seq(|terms|, i requires 0 <= i < |terms| => TermEntry(w, terms[i], attrs)))
    else List(seq(|terms|, i requires 0 <= i < |terms| => Str(terms[i].name)))
  }

  /** One iteration of the `taxonomies` loop: nothing when the post has no term there. */
  function TaxonomyWrites(w: World, t: TaxonomyField, postId: nat): Record {
    var terms := PostTerms(w, postId, TaxonomyName(t));
    if |terms| == 0 then map[] else map[TaxonomyName(t) := TaxonomyValue(w, t, terms)]
  }

  function TaxonomyLayer(taxes: seq<TaxonomyField>, w: World, postId: nat): Record {
    if |taxes| == 0 then map[]
    else TaxonomyWrites(w, taxes[0], postId) + TaxonomyLayer(taxes[1..], w, postId)
  }

  /** The whole `taxonomies` loop. */
  function ApplyTaxonomies(data: Record, taxes: seq<TaxonomyField>, w: World, postId: nat): (r: Record)
    ensures r == data + TaxonomyLayer(taxes, w, postId)
    decreases |taxes|
  {
    if |taxes| == 0 then data
    else
      var r := ApplyTaxonomies(data + TaxonomyWrites(w, taxes[0], postId), taxes[1..], w, postId);
      assert r == data + TaxonomyLayer(taxes, w, postId) by {
        MapUnionAssoc(data, TaxonomyWrites(w, taxes[0], postId), TaxonomyLayer(taxes[1..], w, postId));
      }
      r
  }

  /** The record `save` upserts for a post. */
  function Build(s: IndexSettings, extra: Extension, w: World, p: Post): Record {
    var located := WithLocale(BaseRecord(s, p), w, p);
    var extended := extra(located, p);
    ApplyTaxonomies(ApplyAcfFields(extended, s.acfFields, w, p.id), s.taxonomies, w, p.id)
  }

  /**
    The flattening rules of one `acf_fields` entry: a falsy value adds no key;
    a plain field lands under its own name; a one-label group under the parent
    key; a several-label group under `{key}_{label}` for every label and never
    under the parent key.
   */
  lemma AcfFlattening(data: Record, f: AcfField, v: Value)
    ensures !Truthy(v) ==> ApplyAcfField(data, f, v) == data
    ensures Truthy(v) && f.Plain? ==>
              ApplyAcfField(data, f, v) == data[f.name := PrepareText(v, 0)]
    ensures Truthy(v) && f.Group? && |f.labels| == 1 ==>
              ApplyAcfField(data, f, v) == data[f.key := PrepareText(Prop(v, f.labels[0]), 0)]
    ensures Truthy(v) && f.Group? && |f.labels| != 1 ==>
              var r := ApplyAcfField(data, f, v);
              && r.Keys == data.Keys + SubKeys(f.key, f.labels)
              && (forall k :: k in data && k !in SubKeys(f.key, f.labels) ==> r[k] == data[k])
              && (f.key in r <==> f.key in data)
              && (forall i :: 0 <= i < |f.labels| ==>
                    r[f.key + "_" + f.labels[i]] == PrepareText(Prop(v, f.labels[i]), 0))
  {
    if Truthy(v) && f.Group? && |f.labels| != 1 {
      var key, labels := f.key, f.labels;
      forall i | 0 <= i < |labels|
        ensures SubWrites(key, labels, v)[key + "_" + labels[i]] == PrepareText(Prop(v, labels[i]), 0)
      {
        var k := key + "_" + labels[i];
        assert k in SubKeys(key, labels);
        assert k[|key| + 1..] == labels[i];
      }
      assert key !in SubKeys(key, labels) by {
        forall l | l in labels ensures key + "_" + l != key {
          assert |key + "_" + l| > |key|;
        }
      }
    }
  }

  /** The keys an `acf_fields` entry may write, whatever its value. */
  function AcfDeclared(f: AcfField): set<string> {
    match f
    case Plain(n) => {n}
    case Group(key, labels) => {key} + SubKeys(key, labels)
  }

  function AcfDeclaredAll(fields: seq<AcfField>): set<string> {
    if |fields| == 0 then {} else AcfDeclared(fields[0]) + AcfDeclaredAll(fields[1..])
  }

  function TaxonomyNames(taxes: seq<TaxonomyField>): set<string> {
    set i | 0 <= i < |taxes| :: TaxonomyName(taxes[i])
  }

  lemma {:induction false} AcfLayerKeys(fields: seq<AcfField>, w: World, postId: nat)
    ensures AcfLayer(fields, w, postId).Keys <= AcfDeclaredAll(fields)
    decreases |fields|
  {
    if |fields| > 0 {
      AcfLayerKeys(fields[1..], w, postId);
    }
  }

  lemma {:induction false} TaxonomyLayerKeys(taxes: seq<TaxonomyField>, w: World, postId: nat)
    ensures TaxonomyLayer(taxes, w, postId).Keys <= TaxonomyNames(taxes)
    decreases |taxes|
  {
    if |taxes| > 0 {
      TaxonomyLayerKeys(taxes[1..], w, postId);
      assert TaxonomyNames(taxes[1..]) <= TaxonomyNames(taxes) by {
        forall i | 0 <= i < |taxes[1..]| ensures TaxonomyName(taxes[1..][i]) in TaxonomyNames(taxes) {
          assert taxes[1..][i] == taxes[i + 1];
        }
      }
      assert TaxonomyName(taxes[0]) in TaxonomyNames(taxes);
    }
  }

  /**
    Precedence in the finished record: a taxonomy key wins over everything,
    an ACF key over the base fields, the locale and whatever `extraFields`
    set; a key neither declares keeps the value `extraFields` left.
   */
  lemma BuildPrecedence(s: IndexSettings, extra: Extension, w: World, p: Post, k: string)
    ensures var r := Build(s, extra, w, p);
            var extended := extra(WithLocale(BaseRecord(s, p), w, p), p);
            var acf := AcfLayer(s.acfFields, w, p.id);
            var tax := TaxonomyLayer(s.taxonomies, w, p.id);
            && r.Keys == extended.Keys + acf.Keys + tax.Keys
            && (k in tax ==> r[k] == tax[k])
            && (k in acf && k !in tax ==> r[k] == acf[k])
            && (k in extended && k !in AcfDeclaredAll(s.acfFields) && k !in TaxonomyNames(s.taxonomies) ==>
                  r[k] == extended[k])
  {
    AcfLayerKeys(s.acfFields, w, p.id);
    TaxonomyLayerKeys(s.taxonomies, w, p.id);
  }

  /**
    A taxonomy with terms yields one entry per term, in term order: the
    names, or, when the descriptor lists ACF fields, `{name, field...}`
    objects; a taxonomy without terms leaves its key absent.
   */
  lemma TaxonomyFlattening(w: World, t: TaxonomyField, postId: nat)
    ensures var terms := PostTerms(w, postId, TaxonomyName(t));
            var out := TaxonomyWrites(w, t, postId);
            && (|terms| == 0 ==> out == map[])
            && (|terms| > 0 ==>
                  && out.Keys == {TaxonomyName(t)}
                  && out[TaxonomyName(t)].List?
                  && |out[TaxonomyName(t)].items| == |terms|
                  && (forall i :: 0 <= i < |terms| ==>
                        var item := out[TaxonomyName(t)].items[i];
                        && (|TermAttributes(t)| == 0 ==> item == Str(terms[i].name))
                        && (|TermAttributes(t)| > 0 ==>
                              && item.Dict?
                              && item.entries.Keys == {"name"} + (set a | a in TermAttributes(t))
                              && (forall a :: a in TermAttributes(t) ==>
                                    item.entries[a] == GetField(w, a, TermOwner(terms[i].id)))
                              && ("name" !in TermAttributes(t) ==> item.entries["name"] == Str(terms[i].name)))))
  {
  }
}

=== FILE: text_normalizer.dfy ===
/**
  `AlgoliaIndex::prepareTextContent`: strips markup, turns every run of line
  breaks into one space and, when asked, cuts the text to a width with a
  `...` marker counted inside that width (`mb_strimwidth`).
  Characters are taken to be single-width.
 */
module TextNormalizer {
  import opened Php

  const Marker: string := "..."

  /** The width `save` asks for when the excerpt is derived from the body. */
  const ExcerptWidth: nat := 125

  predicate IsLineBreak(c: char) {
    c == '\n' || c == '\r'
  }

  predicate NoLineBreaks(s: string) {
    forall i :: 0 <= i < |s| ==> !IsLineBreak(s[i])
  }

  predicate NoTagOpen(s: string) {
    forall i :: 0 <= i < |s| ==> s[i] != '<'
  }

  /** What follows the first `>` of `s`; empty when the tag is never closed. */
  function AfterTag(s: string): (r: string)
    ensures |r| < |s| || |s| == 0
  {
    if |s| == 0 then [] else if s[0] == '>' then s[1..] else AfterTag(s[1..])
  }

  /** `strip_tags`, reduced to removing every `<...>` span (an unclosed `<` removes the rest). */
  function StripTags(s: string): (r: string)
    ensures NoTagOpen(r)
    ensures |r| <= |s|
    decreases |s|
  {
    if |s| == 0 then []
    else if s[0] == '<' then StripTags(AfterTag(s[1..]))
    else [s[0]] + StripTags(s[1..])
  }

  /** Text without `<` has no tags to strip. */
  lemma {:induction false} StripTagsKeepsPlainText(s: string)
    requires NoTagOpen(s)
    ensures StripTags(s) == s
  {
    if |s| > 0 {
      StripTagsKeepsPlainText(s[1..]);
    }
  }

  /** A tag body without `>` is skipped up to and including its closing `>`. */
  lemma {:induction false} AfterTagSkips(t: string, b: string)
    requires '>' !in t
    ensures AfterTag(t + ">" + b) == b
    decreases |t|
  {
    if |t| == 0 {
      assert (t + ">" + b)[1..] == b;
    } else {
      assert (t + ">" + b)[1..] == t[1..] + ">" + b;
      AfterTagSkips(t[1..], b);
    }
  }

  /**
    Text before a tag is kept, the whole `<...>` span goes, and stripping
    carries on after it.
   */
  lemma {:induction false} StripTagsSpan(a: string, t: string, b: string)
    requires NoTagOpen(a) && '>' !in t
    ensures StripTags(a + "<" + t + ">" + b) == a + StripTags(b)
    decreases |a|
  {
    var s := a + "<" + t + ">" + b;
    if |a| == 0 {
      assert s[0] == '<' && s[1..] == t + ">" + b;
      AfterTagSkips(t, b);
    } else {
      assert s[0] == a[0] && s[1..] == a[1..] + "<" + t + ">" + b;
      StripTagsSpan(a[1..], t, b);
      assert a == [a[0]] + a[1..];
    }
  }

  /** The text after the leading run of line breaks. */
  function DropLineBreaks(s: string): (r: string)
    ensures |r| <= |s|
    ensures |r| == 0 || !IsLineBreak(r[0])
    ensures |s| > 0 && IsLineBreak(s[0]) ==> |r| < |s|
  {
    if |s| > 0 && IsLineBreak(s[0]) then DropLineBreaks(s[1..]) else s
  }

  /** Dropping the leading run leaves a suffix, which keeps a final non-break character. */
  lemma {:induction false} DropLineBreaksIsSuffix(s: string)
    ensures DropLineBreaks(s) == s[|s| - |DropLineBreaks(s)|..]
    ensures |s| > 0 && !IsLineBreak(s[|s| - 1]) ==> |DropLineBreaks(s)| > 0
  {
    if |s| > 0 && IsLineBreak(s[0]) {
      DropLineBreaksIsSuffix(s[1..]);
      assert s[1..][|s| - 1 - |DropLineBreaks(s)|..] == s[|s| - |DropLineBreaks(s)|..];
    }
  }

  /** `preg_replace('#[\n\r]+#s', ' ', s)`: each maximal run of line breaks becomes one space. */
  function CollapseLineBreaks(s: string): (r: string)
    ensures |r| <= |s|
    decreases |s|
  {
    if |s| == 0 then []
    else if IsLineBreak(s[0]) then " " + CollapseLineBreaks(DropLineBreaks(s))
    else [s[0]] + CollapseLineBreaks(s[1..])
  }

  /** No line break survives, and no `<` is introduced. */
  lemma {:induction false} CollapseRemovesLineBreaks(s: string)
    ensures NoLineBreaks(CollapseLineBreaks(s))
    ensures NoTagOpen(s) ==> NoTagOpen(CollapseLineBreaks(s))
    decreases |s|
  {
    if |s| > 0 {
      if IsLineBreak(s[0]) {
        var d := DropLineBreaks(s);
        DropLineBreaksIsSuffix(s);
        CollapseRemovesLineBreaks(d);
        assert NoTagOpen(s) ==> NoTagOpen(d) by {
          if NoTagOpen(s) {
            forall i | 0 <= i < |d| ensures d[i] != '<' {
              assert d[i] == s[|s| - |d| + i];
            }
          }
        }
      } else {
        CollapseRemovesLineBreaks(s[1..]);
      }
    }
  }

  /** Text without line breaks is left alone. */
  lemma {:induction false} CollapseKeepsUnbrokenText(s: string)
    requires NoLineBreaks(s)
    ensures CollapseLineBreaks(s) == s
  {
    if |s| > 0 {
      CollapseKeepsUnbrokenText(s[1..]);
    }
  }

  /** A leading run ends inside `a` when `a` does not end with a line break. */
  lemma {:induction false} DropStaysInside(a: string, b: string)
    requires |a| > 0 && !IsLineBreak(a[|a| - 1])
    ensures DropLineBreaks(a + b) == DropLineBreaks(a) + b
    decreases |a|
  {
    if IsLineBreak(a[0]) {
      assert (a + b)[1..] == a[1..] + b;
      DropStaysInside(a[1..], b);
    }
  }

  lemma CollapseAtBreak(s: string)
    requires |s| > 0 && IsLineBreak(s[0])
    ensures CollapseLineBreaks(s) == " " + CollapseLineBreaks(DropLineBreaks(s))
  {
  }

  lemma CollapseAtOther(s: string)
    requires |s| > 0 && !IsLineBreak(s[0])
    ensures CollapseLineBreaks(s) == [s[0]] + CollapseLineBreaks(s[1..])
  {
  }

  /** Runs cannot merge across a character that is not a line break. */
  lemma {:induction false} CollapseSplits(a: string, b: string)
    requires |a| == 0 || !IsLineBreak(a[|a| - 1])
    ensures CollapseLineBreaks(a + b) == CollapseLineBreaks(a) + CollapseLineBreaks(b)
    decreases |a|, 1
  {
    if |a| == 0 {
      assert a + b == b;
    } else if IsLineBreak(a[0]) {
      CollapseSplitsAtBreak(a, b);
    } else {
      CollapseSplitsAtOther(a, b);
    }
  }

  lemma {:induction false} CollapseSplitsAtBreak(a: string, b: string)
    requires |a| > 0 && IsLineBreak(a[0]) && !IsLineBreak(a[|a| - 1])
    ensures CollapseLineBreaks(a + b) == CollapseLineBreaks(a) + CollapseLineBreaks(b)
    decreases |a|, 0
  {
    var d := DropLineBreaks(a);
    DropKeepsLast(a);
    CollapseSplits(d, b);
    CollapseBreakThenRest(a, b);
    CollapseAtBreak(a);
    ConcatAssoc(" ", CollapseLineBreaks(d), CollapseLineBreaks(b));
  }

  /** A leading run that ends inside `a` becomes one space before the rest of `a`, then `b`. */
  lemma CollapseBreakThenRest(a: string, b: string)
    requires |a| > 0 && IsLineBreak(a[0]) && !IsLineBreak(a[|a| - 1])
    ensures CollapseLineBreaks(a + b) == " " + CollapseLineBreaks(DropLineBreaks(a) + b)
  {
    assert (a + b)[0] == a[0];
    DropStaysInside(a, b);
    CollapseAtBreak(a + b);
  }

  /** Dropping the leading run of text that ends in a non-break keeps that last character. */
  lemma DropKeepsLast(a: string)
    requires |a| > 0 && !IsLineBreak(a[|a| - 1])
    ensures var d := DropLineBreaks(a); |d| > 0 && !IsLineBreak(d[|d| - 1])
  {
    var d := DropLineBreaks(a);
    DropLineBreaksIsSuffix(a);
    assert d[|d| - 1] == a[|a| - 1];
  }

  lemma {:induction false} CollapseSplitsAtOther(a: string, b: string)
    requires |a| > 0 && !IsLineBreak(a[0]) && !IsLineBreak(a[|a| - 1])
    ensures CollapseLineBreaks(a + b) == CollapseLineBreaks(a) + CollapseLineBreaks(b)
    decreases |a|, 0
  {
    var t := a[1..];
    assert |a| > 1 ==> t[|t| - 1] == a[|a| - 1];
    CollapseSplits(t, b);
    CollapseOtherThenRest(a, b);
    CollapseAtOther(a);
    ConcatAssoc([a[0]], CollapseLineBreaks(t), CollapseLineBreaks(b));
  }

  /** A leading ordinary character is kept before the rest of `a`, then `b`. */
  lemma CollapseOtherThenRest(a: string, b: string)
    requires |a| > 0 && !IsLineBreak(a[0])
    ensures CollapseLineBreaks(a + b) == [a[0]] + CollapseLineBreaks(a[1..] + b)
  {
    assert (a + b)[0] == a[0];
    assert (a + b)[1..] == a[1..] + b;
    CollapseAtOther(a + b);
  }

  /** A run made only of line breaks. */
  predicate AllLineBreaks(s: string) {
    forall i :: 0 <= i < |s| ==> IsLineBreak(s[i])
  }

  lemma {:induction false} DropWholeRun(run: string, b: string)
    requires AllLineBreaks(run)
    requires |b| == 0 || !IsLineBreak(b[0])
    ensures DropLineBreaks(run + b) == b
  {
    if |run| > 0 {
      assert (run + b)[1..] == run[1..] + b;
      DropWholeRun(run[1..], b);
    }
  }

  /**
    Each maximal run of line breaks, however long and whatever mix of `\n`
    and `\r`, becomes exactly one space, and the text around it is collapsed
    independently.
   */
  lemma CollapseRun(a: string, run: string, b: string)
    requires |run| > 0 && AllLineBreaks(run)
    requires |a| == 0 || !IsLineBreak(a[|a| - 1])
    requires |b| == 0 || !IsLineBreak(b[0])
    ensures CollapseLineBreaks(a + (run + b)) == CollapseLineBreaks(a) + (" " + CollapseLineBreaks(b))
  {
    CollapseSplits(a, run + b);
    CollapseLeadingRun(run, b);
  }

  lemma CollapseLeadingRun(run: string, b: string)
    requires |run| > 0 && AllLineBreaks(run)
    requires |b| == 0 || !IsLineBreak(b[0])
    ensures CollapseLineBreaks(run + b) == " " + CollapseLineBreaks(b)
  {
    assert (run + b)[0] == run[0];
    CollapseAtBreak(run + b);
    DropWholeRun(run, b);
  }

  /**
    `mb_strimwidth(s, 0, width, '...')` for single-width characters: text
    that fits is returned whole, longer text keeps `width - 3` characters and
    gets the marker, so the result is exactly `width` long.
   */
  function Strimwidth(s: string, width: nat): (r: string)
    requires width >= |Marker|
    ensures |s| <= width ==> r == s
    ensures |s| > width ==> |r| == width && r[..width - |Marker|] == s[..width - |Marker|]
                             && r[width - |Marker|..] == Marker
  {
    if |s| <= width then s else s[..width - |Marker|] + Marker
  }

  /** A width the source passes: 0 (no truncation) or at least the marker's width. */
  predicate ValidWidth(width: nat) {
    width == 0 || width >= |Marker|
  }

  /** Tags stripped and line-break runs collapsed, before any truncation. */
  function Clean(s: string): (r: string)
    ensures NoTagOpen(r) && NoLineBreaks(r)
    ensures |r| <= |s|
  {
    CollapseRemovesLineBreaks(StripTags(s));
    CollapseLineBreaks(StripTags(s))
  }

  /** Plain text on either side of a tag is joined with nothing in between. */
  lemma CleanDropsTag(a: string, t: string, b: string)
    requires NoTagOpen(a) && NoLineBreaks(a) && NoTagOpen(b) && NoLineBreaks(b) && '>' !in t
    ensures Clean(a + "<" + t + ">" + b) == a + b
  {
    StripTagsSpan(a, t, b);
    StripTagsKeepsPlainText(b);
    assert NoLineBreaks(a + b) by {
      forall i | 0 <= i < |a + b| ensures !IsLineBreak((a + b)[i]) {
        if i < |a| { assert (a + b)[i] == a[i]; } else { assert (a + b)[i] == b[i - |a|]; }
      }
    }
    CollapseKeepsUnbrokenText(a + b);
  }

  /**
    `prepareTextContent($content, $trimLength)`: a non-string passes through
    untouched; a string is cleaned and, for a positive width, cut to it.
   */
  function PrepareText(v: Value, width: nat): (r: Value)
    requires ValidWidth(width)
    ensures !v.Str? ==> r == v
    ensures v.Str? ==> r.Str? && NoTagOpen(r.s) && NoLineBreaks(r.s)
    ensures v.Str? && width == 0 ==> r.s == Clean(v.s)
    ensures v.Str? && width > 0 ==> |r.s| <= width
    ensures v.Str? && width > 0 && |Clean(v.s)| <= width ==> r.s == Clean(v.s)
    ensures v.Str? && width > 0 && |Clean(v.s)| > width ==>
              |r.s| == width && r.s == Clean(v.s)[..width - |Marker|] + Marker
  {
    if !v.Str? then v
    else
      var c := Clean(v.s);
      var t := if width > 0 then Strimwidth(c, width) else c;
      assert NoTagOpen(t) && NoLineBreaks(t) by {
        if width > 0 && |c| > width {
          assert t == c[..width - |Marker|] + Marker;
        }
      }
      Str(t)
  }

  /** Normalised text is a fixed point: normalising again changes nothing. */
  lemma PrepareTextIdempotent(v: Value, width: nat)
    requires ValidWidth(width)
    ensures PrepareText(PrepareText(v, width), width) == PrepareText(v, width)
  {
    if v.Str? {
      var t := PrepareText(v, width).s;
      StripTagsKeepsPlainText(t);
      CollapseKeepsUnbrokenText(t);
    }
  }

  /** The markup example: tags go, the line break becomes a space. */
  lemma PrepareTextStripsAndJoins()
    ensures PrepareText(Str("<p>a\nb</p>"), 0) == Str("a b")
  {
    var s := "<p>a\nb</p>";
    assert AfterTag(s[1..]) == "a\nb</p>";
    assert StripTags("a\nb</p>") == "a\nb";
    assert CollapseLineBreaks("b") == "b";
    assert DropLineBreaks("\nb") == "b";
  }

  /** The marker is counted inside the width: width 3 leaves room for nothing but `...`. */
  lemma PrepareTextMarkerInsideWidth()
    ensures PrepareText(Str("abcdefg"), 3) == Str("...")
    ensures PrepareText(Str("abcdefg"), 5) == Str("ab...")
  {
    var s := "abcdefg";
    StripTagsKeepsPlainText(s);
    CollapseKeepsUnbrokenText(s);
    assert Clean(s) == s;
    assert s[..0] + Marker == "..." && s[..2] + Marker == "ab...";
  }
}

=== FILE: wordpress.dfy ===
/**
  A read-only snapshot of what the plugin asks WordPress, ACF and Polylang
  for. Every host call becomes a lookup in this snapshot: `get_field` is a
  map, `wp_get_post_terms` a map to a sequence, `get_posts` a filter over
  the listing, and thumbnails, dates, permalinks and `get_post_type` are
  opaque values carried by the post.
 */
module Wordpress {
  import opened Php

  /** Host-computed values `save` copies into the record without looking at them. */
  datatype Media = Media(
    thumbnails: map<string, Value>,  // get_the_post_thumbnail_url, by size name
    dateIso: Value,                  // get_the_date('c')
    dateUnix: Value,                 // get_the_date('U')
    permalink: Value,                // get_permalink
    typeName: Value)                 // get_post_type

  datatype Post = Post(
    id: nat,
    postType: string,
    status: string,
    isAutosave: bool,                // wp_is_post_autosave
    title: string,
    content: string,
    excerpt: string,
    media: Media)

  datatype Term = Term(id: nat, name: string, taxonomy: string)

  /** Whose custom field `get_field` reads: a post (by id) or a term. */
  datatype Owner = PostOwner(postId: nat) | TermOwner(termId: nat)

  /** The Polylang functions the plugin calls, present only when Polylang is active. */
  datatype Polylang = Polylang(
    languages: map<nat, Value>,      // pll_get_post_language
    defaultSlug: Value)              // pll_default_language('slug')

  datatype World = World(
    posts: seq<Post>,                          // every post, in the order get_posts lists them
    terms: map<nat, Term>,                     // get_term
    postTerms: map<(nat, string), seq<Term>>,  // wp_get_post_terms(post id, taxonomy)
    fields: map<(string, Owner), Value>,       // get_field(name, owner)
    acfLoaded: bool,                           // function_exists('get_field')
    polylang: Option<Polylang>)                // function_exists('pll_get_post_language')

  const Published: string := "publish"

  /** `get_field`: null for a field that was never stored. */
  function GetField(w: World, name: string, owner: Owner): Value {
    if (name, owner) in w.fields then w.fields[(name, owner)] else Null
  }

  /** `wp_get_post_terms`: no terms for an unknown pair. */
  function PostTerms(w: World, postId: nat, taxonomy: string): seq<Term> {
    if (postId, taxonomy) in w.postTerms then w.postTerms[(postId, taxonomy)] else []
  }

  /** `get_the_post_thumbnail_url`: false when the post has no thumbnail at that size. */
  function Thumbnail(p: Post, size: string): Value {
    if size in p.media.thumbnails then p.media.thumbnails[size] else Bool(false)
  }

  /** `pll_get_post_language`: false for a post without a language. */
  function PostLanguage(pl: Polylang, id: nat): Value {
    if id in pl.languages then pl.languages[id] else Bool(false)
  }

  /** `get_post`: the first post with that id, if any. */
  function GetPost(posts: seq<Post>, id: nat): (r: Option<Post>)
    ensures r.Some? ==> r.value in posts && r.value.id == id
    ensures r.None? ==> forall i :: 0 <= i < |posts| ==> posts[i].id != id
  {
    if |posts| == 0 then None
    else if posts[0].id == id then Some(posts[0])
    else GetPost(posts[1..], id)
  }

  /** `get_term`. */
  function GetTerm(w: World, id: nat): Option<Term> {
    if id in w.terms then Some(w.terms[id]) else None
  }

  /** A `tax_query` clause `{taxonomy, field: term_id, terms: termId, operator: IN}` matches the post. */
  predicate InTerm(w: World, p: Post, taxonomy: string, termId: nat) {
    exists i :: 0 <= i < |PostTerms(w, p.id, taxonomy)| && PostTerms(w, p.id, taxonomy)[i].id == termId
  }

  /** `get_posts`: the posts the query matches, in listing order. */
  function Filter(posts: seq<Post>, keep: Post -> bool): (r: seq<Post>)
    ensures |r| <= |posts|
    ensures forall p :: p in r <==> p in posts && keep(p)
  {
    if |posts| == 0 then []
    else (if keep(posts[0]) then [posts[0]] else []) + Filter(posts[1..], keep)
  }

  /** A one-post listing is kept exactly when the post matches. */
  lemma FilterSingle(p: Post, keep: Post -> bool)
    ensures Filter([p], keep) == if keep(p) then [p] else []
  {
    assert [p][1..] == [];
  }

  /** Filtering a listing split in two filters each part and keeps them in listing order. */
  lemma {:induction false} FilterAppend(a: seq<Post>, b: seq<Post>, keep: Post -> bool)
    ensures Filter(a + b, keep) == Filter(a, keep) + Filter(b, keep)
    decreases |a|
  {
    if |a| == 0 {
      assert a + b == b;
    } else {
      assert (a + b)[0] == a[0];
      assert (a + b)[1..] == a[1..] + b;
      FilterAppend(a[1..], b, keep);
      var head := if keep(a[0]) then [a[0]] else [];
      ConcatAssoc(head, Filter(a[1..], keep), Filter(b, keep));
    }
  }
}
